=== FILE: README.md ===
# PFQ kernel core, modelled in Dafny

This project models the core of the PFQ packet-capture kernel module:

- **Mask utilities** of `kernel/pfq/bitops.h`:
  - population count and count-trailing-zeros over 32-, 64- and 128-bit unsigned masks;
  - the `pfq_ctz` / `pfq_popcount` dispatch by operand type;
  - the `pfq_bitwise_foreach` loop, which visits the set bits of a mask with `n = mask & -mask` and `mask ^= n`.
- **Steering actions** of the pfq-lang library in `kernel/engine/lang/forward.c`:
  - `forward`, `forwardIO`, `bridge`, `link`, `tap`, `tee`, `kernel_if` and `detour_if`;
  - the device init/fini hooks (`forward_init`, `forward_fini`, `link_init`, `link_fini`);
  - the `forward_functions` registration table.
- **Default configuration** of `kernel/engine/global.c` (`default_global`, `pfq_global_init`).
- **Module-level logic** of `kernel/pf_q.c`:
  - the load-time option checks and the Tx-thread affinity check;
  - the order in which `pfq_init_module` sets subsystems up, and the `goto` ladder that tears them down on failure;
  - `pfq_exit_module`;
  - registering and unregistering the packet handler;
  - the capture decision of `pfq_packet_rcv`;
  - the checks and error paths of `pfq_create`.

Files:

| file | module | models |
|---|---|---|
| `wrappers.dfy` | `Wrappers` | `Option` |
| `errno.dfy` | `Errno` | the Linux error numbers the code returns |
| `bitmath.dfy` | `BitMath` | unsigned `w`-bit integers as naturals: bits, popcount, ctz, two's-complement negation, `&`, `^`, truncating casts and shifts |
| `bitops.dfy` | `Bitops` | `bitops.h` |
| `forward.dfy` | `Forward` | `forward.c` |
| `global.dfy` | `Global` | `global.c` |
| `pfq.dfy` | `Pfq` | `pf_q.c`: options, affinity, load and unload |
| `pfq_handler.dfy` | `PfqHandler` | `pf_q.c`: packet handler and socket creation |

How the model represents the C code:

- **Unsigned masks** are natural numbers with an explicit width.
  - A C cast to a narrower unsigned type is `x % 2^w`, and `x >> a` is `x / 2^a`.
  - `-x` on a `w`-bit unsigned value is `2^w - x` (0 stays 0).
  - `__builtin_ctz` of 0 is undefined in C, so the model returns `None` for it.
- **Device handles** are `Option<DevId>`, with `None` as NULL.
- **Side effects of an action** are a list of events (`LazyXmit`, `Xmit`, `ToKernel`) plus the counter increments it makes.
- **Loading and unloading** are a trace of `Setup(subsystem, ok)` and `Release(subsystem)` steps.
  - A subsystem *holds* after a trace when it was set up successfully and never released.
  - Whatever a kernel call returns is a parameter: every fallible initialisation, `skb_share_check`, `pfq_receive`, `capable`, `sk_alloc`, `pfq_get_free_id` and `pfq_sock_init`. So are `num_online_cpus()`, `Q_SKBUFF_BATCH` and `Q_MAX_POOL_SIZE`.

## Model

| member | source | states |
|---|---|---|
| `BitMath.PopcountSplit` | kernel/pfq/bitops.h:27-32 | the set bits of a value are the set bits of its low `a` bits plus those of the value shifted right by `a`, each counted once |
| `BitMath.AndNegIsLowestBit` | kernel/pfq/bitops.h:56-59 | for a nonzero `w`-bit `x`, `x & -x` is the power of two at the lowest set bit of `x` |
| `BitMath.XorSetBit` | kernel/pfq/bitops.h:59 | xoring a value with the weight of one of its set bits subtracts that weight |
| `BitMath.CtzUnique` | kernel/pfq/bitops.h:43-47 | an index whose bit is set and below which every bit is clear is the ctz of the value |
| `Bitops.BuiltinCtz` | kernel/pfq/bitops.h:37-38 | `__builtin_ctz*` is undefined exactly on 0; otherwise it gives an index below the width whose bit is set and below which every bit is clear |
| `Bitops.Popcount128` | kernel/pfq/bitops.h:27-32 | adding the popcounts of the two 64-bit halves gives the popcount of the 128-bit value |
| `Bitops.Ctz128` | kernel/pfq/bitops.h:34-40 | the selected half's count (plus 64 for the high half) is the lowest set bit of the whole 128-bit value; the low half is chosen exactly when it is nonzero, so the half that is used is defined |
| `Bitops.Ctz128LowHalf` | kernel/pfq/bitops.h:37-39 | the lowest set bit of a nonzero low half is the lowest set bit of the 128-bit value |
| `Bitops.Ctz128HighHalf` | kernel/pfq/bitops.h:38-39 | when the low half is 0, the high half's lowest set bit plus 64 is the lowest set bit of the 128-bit value |
| `Bitops.PfqCtz` | kernel/pfq/bitops.h:43-47 | for each of the four operand types, the result is below the type's width, its bit is set and every lower bit is clear |
| `Bitops.PfqPopcount` | kernel/pfq/bitops.h:49-53 | for each of the four operand types, the result is the number of set bits within the type's width, at most the width |
| `Bitops.LowestBit` | kernel/pfq/bitops.h:59 | `mask & -mask` is 0 for a zero mask and otherwise the power of two at the mask's lowest set bit, which is a bit of the mask |
| `Bitops.ClearLowestBit` | kernel/pfq/bitops.h:59 | `mask ^= n` clears exactly the lowest set bit: the mask decreases, loses one set bit, and every other bit is kept |
| `Bitops.BitwiseForeach` | kernel/pfq/bitops.h:56-61 | for a body that neither assigns `n` nor leaves the loop, the loop runs once per set bit of the mask, visiting the set bits in strictly increasing order; each `n` is the power of two at its bit, and every set bit is visited and nothing else |
| `Forward.ForwardAct` | kernel/engine/lang/forward.c:142-160 | `forward` always passes; it transmits to the device and counts `frwd` exactly when the handle is not NULL |
| `Forward.BridgeAct` | kernel/engine/lang/forward.c:163-179 | `bridge` always drops; it transmits and counts exactly when the handle is not NULL |
| `Forward.TapAct` | kernel/engine/lang/forward.c:202-222 | `tap` passes exactly when the device exists and the predicate holds; it copies to the device exactly when the device exists and the predicate fails |
| `Forward.TeeAct` | kernel/engine/lang/forward.c:225-245 | `tee` passes exactly when the device exists and the predicate holds; it copies to every existing device whatever the predicate says |
| `Forward.KernelIfAct` | kernel/engine/lang/forward.c:248-255 | `kernel_if` always passes and hands a copy to the kernel exactly when the predicate holds, transmitting and counting nothing |
| `Forward.DetourIfAct` | kernel/engine/lang/forward.c:258-266 | `detour_if` drops exactly the packets it hands to the kernel, which are exactly those the predicate accepts |
| `Forward.ForwardIOAct` | kernel/engine/lang/forward.c:100-139 | `forwardIO` always passes and bumps exactly one of `frwd` and `disc`, in the group and global counters alike; `frwd` is bumped exactly when the device exists, the clone succeeded and `pfq_xmit` returned 1 |
| `Forward.LinkAct` | kernel/engine/lang/forward.c:182-199 | `link` always passes; per device, it sends as many copies as there are non-NULL entries for that device, and none to the ingress device; `frwd` counts the copies |
| `Forward.LinkSendsInOrder` | kernel/engine/lang/forward.c:189-196 | `link` transmits in array order, to exactly the non-NULL entries other than the ingress device, a device listed twice being sent to twice |
| `Forward.TargetsSplit` | kernel/engine/lang/forward.c:189-196 | the destinations of `link` are fixed slot by slot: a slot contributes its device when it is non-NULL and not the ingress device, and two arrays end to end contribute their destinations end to end |
| `Forward.CountersMatchTransmissions` | kernel/engine/lang/forward.c:100-245 | for every action `frwd` never exceeds the transmissions made and equals them except for `forwardIO`; only `forwardIO` touches `disc` or the global counters, and it bumps them together |
| `Forward.TapTeeSameVerdict` | kernel/engine/lang/forward.c:202-245 | `tap` and `tee` reach the same verdict on every input; what they send differs exactly when the device exists and the predicate holds |
| `Forward.BridgeIsForwardThenDrop` | kernel/engine/lang/forward.c:142-179 | `bridge` does what `forward` does, except that it drops |
| `Forward.DetourIfIsKernelIfThenDrop` | kernel/engine/lang/forward.c:248-266 | `detour_if` hands the same packets to the kernel as `kernel_if`, and drops exactly those |
| `Forward.LinkOfOneIsForward` | kernel/engine/lang/forward.c:142-199 | `link` over a single device is `forward`, unless that device is the ingress device, in which case it does nothing |
| `Forward.ForwardInit` | kernel/engine/lang/forward.c:32-47 | succeeds exactly when the name resolves; on success the slot holds the device and one reference is taken; on failure it returns -EINVAL, leaves the name in place and takes no reference |
| `Forward.ForwardFini` | kernel/engine/lang/forward.c:50-59 | returns 0 and drops one reference exactly when the handle is not NULL |
| `Forward.ForwardInitFiniBalanced` | kernel/engine/lang/forward.c:32-59 | after a successful `forward_init`, `forward_fini` releases exactly the reference init took |
| `Forward.LinkInit` | kernel/engine/lang/forward.c:62-80 | always returns 0; each slot becomes its name's device, or NULL when the name does not resolve, and one reference is taken per non-NULL slot, counted with multiplicity |
| `Forward.LinkFini` | kernel/engine/lang/forward.c:83-97 | returns 0 and releases one reference per non-NULL slot, counted with multiplicity |
| `Forward.LinkInitFiniBalanced` | kernel/engine/lang/forward.c:62-97 | `link_fini` after `link_init` releases exactly the references init took, device by device |
| `Forward.ForwardFunctionsConsistent` | kernel/engine/lang/forward.c:269-290 | no symbol is registered twice, and every entry registers exactly the init/fini hooks its signature needs: device hooks for a leading `String`, link hooks for a leading `[String]`, none otherwise |
| `Forward.ActionsRegistered` | kernel/engine/lang/forward.c:278-288 | every modelled action is in the table under its symbol, with a signature matching the arguments it reads and with the hooks that resolve its device names |
| `Global.GlobalInit` | kernel/engine/global.c:27-50 | the default configuration is well formed: positive slot sizes and batch lengths, pool size 1024 (non-negative), no more Tx threads than affinity entries. It captures incoming traffic only, so the packet handler is needed, and it starts no Tx thread |
| `Pfq.CheckTxThreadsAffinity` | kernel/pf_q.c:473-498 | returns 0 exactly when the first `tx_thread_nr` entries lie in `[0, num_online_cpus())` and are pairwise distinct, and -EFAULT otherwise. A bad CPU is reported before any duplicate, at the first bad index; a duplicate is reported at the first index that has a later twin |
| `Pfq.Htons` | kernel/pf_q.c:392 | `__constant_htons` on a little-endian host; its value for `ETH_P_ALL` is stated in `PfqHandler.ProtocolAllValue` |
| `Pfq.RegisterDeviceHandler` | kernel/pf_q.c:316-324 | installs the packet hook only when some direction is captured; the contract is in `PfqHandler.CaptureNeedsHandler`, `Pfq.SuccessHolds` and `Pfq.LoadThenExit` |
| `Pfq.UnregisterDeviceHandler` | kernel/pf_q.c:327-333 | removes the hook under the same condition; the contract is in `Pfq.ExitReleasesAll` and `Pfq.LoadThenExit` |
| `Pfq.Unwind` | kernel/pf_q.c:601-617 | the fall-through tear-down from a label; the contract is in `Pfq.UnwindSteps`, `Pfq.NeverReleasedAsWritten` and `Pfq.ReleasedAtErr5` |
| `Pfq.Fail` | kernel/pf_q.c:616-617 | `goto` a label and return `err < 0 ? err : -EFAULT`; the contract is in `Pfq.FailHolds` |
| `Pfq.CoreCalls` | kernel/pf_q.c:529-557 | the set-up calls from `pfq_groups_init` to `sock_register` with their labels; the contract is in `Pfq.CoreLadder` |
| `Pfq.RunCalls` | kernel/pf_q.c:529-557 | makes the calls in order, jumping to the first failure's label; the contract is in `Pfq.RunCallsOk`, `Pfq.RunCallsFail` and `Pfq.RunCallsRet` |
| `Pfq.Load` | kernel/pf_q.c:501-618 | `pfq_init_module`, option checks first; the contract is in `Pfq.LoadResultCode`, `Pfq.LoadFailure` and `Pfq.LoadSuccessTrace` |
| `Pfq.LoadServices` | kernel/pf_q.c:559-575 | skb pools, symbol table, packet hook and notifier; the contract is in `Pfq.ServicesFailure` |
| `Pfq.StartTxThreads` | kernel/pf_q.c:577-585 | the Tx-thread section; the contract is in `Pfq.StartTxFailure` and `Pfq.AffinityIgnoredWithoutTxThreads` |
| `Pfq.InitModule` | kernel/pf_q.c:501-618 | the load as written returns 0 exactly when every check and set-up call succeeds and a negative error otherwise; what it leaves set up is in `Pfq.LoadTeardown` and `Pfq.AffinityFailureLeaks` |
| `Pfq.InitModuleCorrected` | kernel/pf_q.c:501-618 | the load with `err6` also freeing the symbol table and skb pools returns at most 0, and 0 exactly when every check and set-up call succeeds; that its code equals the as-written one is `Pfq.CorrectionOnlyAffectsFailures`, and what it leaves set up is `Pfq.LoadTeardownCorrected` |
| `Pfq.ExitModule` | kernel/pf_q.c:621-670 | `pfq_exit_module` as a sequence of releases; the contract is in `Pfq.ExitReleasesAll` and `Pfq.LoadThenExit` |
| `Pfq.LoadResultCode` | kernel/pf_q.c:501-618 | `pfq_init_module` returns 0 exactly when every option check, every set-up call, the affinity check and the thread start succeed, and a negative error otherwise; bad options return -EFAULT before anything is set up, whatever `tx_thread_nr` and `tx_affinity` hold |
| `Pfq.LoadTeardown` | kernel/pf_q.c:527-618 | as written: a failed load leaves at most the group table, the symbol table and the skb pools set up; a successful one holds exactly the subsystems it set up |
| `Pfq.LoadTeardownCorrected` | kernel/pf_q.c:601-618 | with `err6` also releasing the symbol table and the skb pools, a failed load leaves only the group table set up |
| `Pfq.CorrectionOnlyAffectsFailures` | kernel/pf_q.c:601-618 | the code as written and the corrected code return the same code, and agree entirely whenever the load succeeds |
| `Pfq.RunCallsContinue` | kernel/pf_q.c:529-557 | the load goes past the set-up calls only when every one of them returned a non-negative value |
| `Pfq.RunCallsRet` | kernel/pf_q.c:529-557 | making the same calls, the code as written and the corrected code stop at the same call with the same error, or both go on with the same trace |
| `Pfq.AffinityFailureLeaks` | kernel/pf_q.c:559-605 | a load that fails the affinity check after every set-up call succeeded returns -EFAULT and still holds the symbol table, and the skb pools when built with them; the corrected load holds neither |
| `Pfq.DuplicateAffinityLeaksSymbolTable` | kernel/pf_q.c:569-605 | concretely: two Tx threads both pinned to CPU 0, with default options, make the load fail with the symbol table still allocated |
| `Pfq.NeverReleasedAsWritten` | kernel/pf_q.c:601-617 | no label of the error ladder as written releases the symbol table or the skb pools |
| `Pfq.ReleasedAtErr5` | kernel/pf_q.c:606-617 | the `err5` tear-down undoes the socket family, protocol, proc and per-CPU set-up and nothing else |
| `Pfq.UnwindSteps` | kernel/pf_q.c:601-617 | a tear-down only releases, and releases exactly the subsystems of its label and of every label below it |
| `Pfq.FailHolds` | kernel/pf_q.c:601-617 | after `goto label` the result is negative, and a subsystem holds exactly when it held before and the label's tear-down does not release it |
| `Pfq.RunCallsOk` | kernel/pf_q.c:529-557 | when all set-up calls succeed, the load goes on with one successful set-up step per call, in order |
| `Pfq.RunCallsFail` | kernel/pf_q.c:529-557 | when call `k` is the first to fail, the load returns through that call's label, after the successful steps of calls 0 to `k-1` and the failed step of call `k` |
| `Pfq.CoreLadder` | kernel/pf_q.c:529-557 | each core call's error label tears down exactly what the calls before it set up, except the group table |
| `Pfq.CoreFailure` | kernel/pf_q.c:529-557 | a failure before the socket family is registered returns a negative error and leaves at most the group table set up |
| `Pfq.ServicesFailure` | kernel/pf_q.c:559-585 | a failure after the socket family is registered returns a negative error; what still holds was held before and survives `err5`, or is the symbol table or skb pool as written |
| `Pfq.StartTxFailure` | kernel/pf_q.c:577-585 | a failing affinity check or thread start returns a negative error and releases everything `err6` releases |
| `Pfq.LoadFailure` | kernel/pf_q.c:501-618 | every failed load returns a negative error and leaves at most the group table and, as written, the symbol table and skb pools |
| `Pfq.LoadSuccessTrace` | kernel/pf_q.c:527-599 | a load whose calls all succeed returns 0 after exactly the successful set-up steps, in source order |
| `Pfq.SuccessHolds` | kernel/pf_q.c:527-599 | the success trace holds exactly the loaded subsystems: the packet hook only when something is captured, the Tx threads only when some are configured |
| `Pfq.ExitReleasesAll` | kernel/pf_q.c:621-670 | `pfq_exit_module` only releases; it releases every subsystem a successful load may hold, and removes the packet hook exactly when some direction is captured |
| `Pfq.LoadThenExit` | kernel/pf_q.c:501-670 | unloading after a successful load leaves nothing set up, and the packet hook is removed exactly when the load added it |
| `Pfq.AffinityIgnoredWithoutTxThreads` | kernel/pf_q.c:577-585 | without Tx threads the affinity option is never read: the load is the same whatever it holds |
| `Pfq.DefaultsLoad` | kernel/pf_q.c:509-599 | when `Q_SKBUFF_BATCH` is at least 1 and `Q_MAX_POOL_SIZE` at least 1024, the default configuration passes the option checks, and with set-up calls that succeed the load returns 0, installs the packet hook and starts no Tx thread |
| `Pfq.CapturingLoad` | kernel/pf_q.c:571-585 | with valid options, no Tx thread and some direction captured, a load whose calls succeed returns 0 with the packet hook installed |
| `PfqHandler.PacketRcv` | kernel/pf_q.c:102-143 | a packet reaches `pfq_receive` exactly when it is not looped back, not peeked, was unshared and its direction is captured; it is lost in unsharing exactly when unsharing failed; every other packet is freed and counted in `os_free`. Only a received packet returns `pfq_receive`'s value; a peeked packet that is not looped back has `peeked` cleared; an outgoing received packet gets `mac_len = ETH_HLEN` |
| `PfqHandler.CaptureNeedsHandler` | kernel/pf_q.c:316-324 | any packet the handler passes on implies that the registration condition holds, so the hook is installed |
| `PfqHandler.CaptureMonotonic` | kernel/pf_q.c:124-136 | turning a capture switch on never stops a packet from being received, and for non-outgoing packets only the incoming switch matters |
| `PfqHandler.EveryPacketAccounted` | kernel/pf_q.c:111-143 | each packet is either received, or freed and counted, or lost in unsharing: never two of them |
| `PfqHandler.Create` | kernel/pf_q.c:371-454 | `pfq_create` returns 0 exactly when the caller has `CAP_NET_ADMIN`, the socket is raw, the protocol is `htons(ETH_P_ALL)` (taken on a little-endian host), allocation, id and socket initialisation succeed. The checks give -EPERM, -ESOCKTNOSUPPORT, -EPROTONOSUPPORT, -ENOMEM, -EBUSY and -EINVAL in that order. The `struct sock` stays allocated and the symbol table read-locked exactly on success; `sock_lock` is taken once, and released, exactly when the checks pass, `sk_alloc` succeeds and a free id is found, and is not taken otherwise; options are set only on success |
| `PfqHandler.ProtocolAllValue` | kernel/pf_q.c:392-393 | on a little-endian host, the protocol argument must be `ETH_P_ALL` byte-swapped, 0x0300, and swapping it back gives `ETH_P_ALL` |
| `PfqHandler.CreateFailureLeavesNothing` | kernel/pf_q.c:386-437 | every error path returns one of the six errors and leaves no socket, no lock, no symbol-table read lock and no options behind |
| `PfqHandler.ChecksPrecedeAllocation` | kernel/pf_q.c:386-395 | a request the sanity checks reject returns the same error whatever allocation, id assignment and socket initialisation would have done |

## Left out

- Output: `printk`, `printk_ratelimit` and the counters' per-CPU storage are not modelled. Counters are increments per call.
- Concurrency: `mutex_lock`/`mutex_unlock` are not modelled as locks. `pfq_create` records how often it takes and releases `sock_lock`, and whether it keeps `symtable_sem` read-locked.
- Subsystems behind the trace steps: the internals of groups, per-CPU data, proc files, the skb pools, the symbol table and the Tx threads are not part of this model. Each set-up call is its return value, and each tear-down call is a `Release` step.
- `pfq_receive`, `skb_share_check`, `skb_clone`, `pfq_xmit`, `pfq_lazy_xmit` and `to_kernel` are parameters or events, not models.
- Predicate evaluation (`EVAL_PREDICATE`): it is a boolean argument of each action.
- The `for_each_netdev` / `BUG_ON(ifindex >= Q_MAX_DEVICE)` loop at the end of `pfq_init_module`: it panics rather than returning, so it is not modelled.
- `pfq_exit_module` steps without a counterpart in the load: `pfq_skb_pool_enable`, `pfq_devmap_monitor_reset`, the grace-period sleep, and the count of freed buffers.
- `pfq_exit_module` reads the capture switches again when it unregisters the handler. The model assumes they are unchanged since the load.
- The other entries of `forward_functions` (`drop`, `broadcast`, `classify`, `kernel`, `detour`): their bodies live in another file. The table is modelled; those actions are not.
- How the engine binds arguments (`GET_ARG`, `SET_ARG`, `GET_ARRAY`): a slot holds either a name or a device.
- `pfq_get_free_id`, `pfq_sock_init` and `pfq_sock_opt_init` are parameters or a record of the two slot sizes. `sk_free` is modelled as the `struct sock` no longer being live.
- `unsigned long` is taken to be 64 bits wide, as on LP64 targets.
- `Pfq.Load` requires `tx_thread_nr` to be at most the length of `tx_affinity` only on inputs that reach the Tx-thread section: valid options, every set-up call succeeding, and the skb pools set up when built with them (`Pfq.AffinityReadable`). There the C code would read past the array otherwise, and that read is not modelled. A load that fails earlier never reads the array and is modelled whatever `tx_thread_nr` holds.
- `Pfq.CheckTxThreadsAffinity` and `Pfq.StartTxThreads` require the bound on every input, since each of them reads the array.
- Which CPUs are online: `check_tx_threads_affinity` compares each CPU id only with `num_online_cpus()`, so the model takes that count as a number and has no set of online CPUs. When the online ids are not contiguous, the check's answer can differ from whether the CPU is online. No finding is claimed for it.
- `Bitops.BitwiseForeach` assumes the caller's body neither assigns `n` nor leaves the loop early (`break`, `return`, `goto`). Such a body would change which bits `mask ^= n` clears, or stop the loop before every set bit is visited, and the contract does not cover it.
- `PfqHandler.ProtocolAllValue` and `PfqHandler.Create` assume a little-endian host: `__constant_htons(ETH_P_ALL)` is 0x0300 there, but 3 on a big-endian host, which this model does not cover.
- `Forward.ForwardFini` takes a device handle, while `Forward.ForwardInit` leaves a slot that is either a name or a device. The model assumes the engine calls fini only on slots that init resolved to a device, as `Forward.ForwardInitFiniBalanced` states.
- The group table after a failed load: no error label calls `pfq_groups_destruct`, so the model, corrected or not, still counts the group table as set up. What `pfq_groups_init` allocates is not part of this model, so no finding is claimed for it.
- `pfq_lang_symtable_init`, `pfq_register_device_handler` and `register_netdevice_notifier` are modelled as always succeeding. The code checks none of their results.

## Findings

| source | as written | input that shows it | evidently intended | confidence | as-written member | corrected member |
|---|---|---|---|---|---|---|
| kernel/pf_q.c:559-617 | After `sock_register`, the load sets up the skb pools (with `PFQ_USE_SKB_POOL`) and the pfq-lang symbol table. Then a failing `check_tx_threads_affinity` jumps to `err6`, and a failing `pfq_start_all_tx_threads` to `err7`. Neither label, nor any label below them, calls `pfq_lang_symtable_free` or `pfq_skb_pool_free_all`, so both stay allocated after the module failed to load | `tx_thread_nr = 2` with `tx_affinity = {0, 0}` (the default array), on a machine with 2 CPUs: the duplicate-CPU check fails and the load returns -EFAULT with the symbol table still allocated | the `err6` path frees the symbol table and the skb pools, as `pfq_exit_module` does | not executed | `Pfq.InitModule` (shown by `Pfq.AffinityFailureLeaks` and `Pfq.DuplicateAffinityLeaksSymbolTable`) | `Pfq.InitModuleCorrected` (proved by `Pfq.LoadTeardownCorrected`) |

=== FILE: bitmath.dfy ===
/** Arithmetic model of fixed-width unsigned integers.

    A value of a `w`-bit unsigned C type is a natural number below `Pow2(w)`.
    Bit `i` is read by halving, and the bitwise operators are defined bit by
    bit from the least significant end, so that every fact about them is
    proved by induction on the width. */
module BitMath {

  function Pow2(n: nat): (p: nat)
    ensures p >= 1
  {
    if n == 0 then 1 else 2 * Pow2(n - 1)
  }

  /** Bit `i` of `x` (0 or 1). */
  function Bit(x: nat, i: nat): (b: nat)
    ensures b <= 1
  {
    if i == 0 then x % 2 else Bit(x / 2, i - 1)
  }

  /** Number of set bits among the low `w` bits of `x`. */
  function Popcount(x: nat, w: nat): nat
  {
    if w == 0 then 0 else x % 2 + Popcount(x / 2, w - 1)
  }

  /** Index of the lowest set bit of a nonzero `w`-bit value. */
  function Ctz(x: nat, w: nat): (r: nat)
    requires 0 < x < Pow2(w)
    ensures r < w
    ensures Bit(x, r) == 1
    ensures forall i :: 0 <= i < r ==> Bit(x, i) == 0
  {
    if x % 2 == 1 then 0 else 1 + Ctz(x / 2, w - 1)
  }

  /** Two's-complement negation of a `w`-bit value: `-x` taken modulo 2^w. */
  function Neg(x: nat, w: nat): (r: nat)
    requires x < Pow2(w)
    ensures r < Pow2(w)
    ensures (x + r) % Pow2(w) == 0
  {
    var p := Pow2(w);
    ModOfZeroAndSelf(p);
    if x == 0 then 0 else p - x
  }

  /** Bitwise and of the low `w` bits. */
  function And(x: nat, y: nat, w: nat): nat
  {
    if w == 0 then 0
    else (if x % 2 == 1 && y % 2 == 1 then 1 else 0) + 2 * And(x / 2, y / 2, w - 1)
  }

  /** Bitwise exclusive or of the low `w` bits. */
  function Xor(x: nat, y: nat, w: nat): nat
  {
    if w == 0 then 0
    else (if x % 2 != y % 2 then 1 else 0) + 2 * Xor(x / 2, y / 2, w - 1)
  }

  /** The C conversion of `x` to an `a`-bit unsigned type: the low `a` bits. */
  function Low(x: nat, a: nat): nat
  {
    x % Pow2(a)
  }

  /** The C shift `x >> a` on an unsigned operand. */
  function High(x: nat, a: nat): nat
  {
    var p := Pow2(a);
    DivNonnegative(x, p);
    x / p
  }

  // ---------------------------------------------------------------------
  // Arithmetic helpers

  lemma DivModUnique(x: int, d: int, q: int, r: int)
    requires d > 0 && 0 <= r < d && x == q * d + r
    ensures x / d == q && x % d == r
  {
    var q', r' := x / d, x % d;
    var k := q - q';
    assert k * d == r' - r by {
      assert q' * d + r' == q * d + r;
    }
    if k > 0 {
      MulAtLeast(k, d);
    } else if k < 0 {
      MulAtLeast(-k, d);
    }
  }

  lemma ModOfZeroAndSelf(p: nat)
    requires p > 0
    ensures 0 % p == 0 && p % p == 0
  {
    DivModUnique(0, p, 0, 0);
    DivModUnique(p, p, 1, 0);
  }

  lemma DivNonnegative(x: nat, p: nat)
    requires p > 0
    ensures x / p >= 0
  {
    var q := x / p;
    if q < 0 {
      MulAtLeast(-q, p);
    }
  }

  lemma MulAtLeast(k: int, d: int)
    requires k >= 1 && d > 0
    ensures k * d >= d
  {
  }

  /** Halving commutes with taking the low bits and with shifting. */
  lemma HalveLowHigh(x: nat, a: nat)
    requires a > 0
    ensures Low(x, a) % 2 == x % 2
    ensures Low(x, a) / 2 == Low(x / 2, a - 1)
    ensures High(x, a) == High(x / 2, a - 1)
  {
    var p := Pow2(a - 1);
    var q, r0 := x / 2, x % 2;
    var q1, r1 := q / p, q % p;
    assert x == q1 * (2 * p) + (2 * r1 + r0);
    DivModUnique(x, 2 * p, q1, 2 * r1 + r0);
    DivModUnique(2 * r1 + r0, 2, r1, r0);
  }

  lemma Pow2Monotonic(a: nat, b: nat)
    requires a <= b
    ensures Pow2(a) <= Pow2(b)
  {
    if a < b { Pow2Monotonic(a, b - 1); }
  }

  lemma BitOfZero(i: nat)
    ensures Bit(0, i) == 0
  {
    if i > 0 { BitOfZero(i - 1); }
  }

  lemma PopcountOfZero(w: nat)
    ensures Popcount(0, w) == 0
  {
    if w > 0 { PopcountOfZero(w - 1); }
  }

  lemma {:induction false} BitOfPow2(r: nat, i: nat)
    ensures Bit(Pow2(r), i) == if i == r then 1 else 0
  {
    if i == 0 {
    } else if r == 0 {
      BitOfZero(i - 1);
    } else {
      BitOfPow2(r - 1, i - 1);
    }
  }

  /** The lowest-set-bit characterisation determines the index. */
  lemma CtzUnique(x: nat, w: nat, r: nat)
    requires 0 < x < Pow2(w)
    requires r < w && Bit(x, r) == 1
    requires forall i :: 0 <= i < r ==> Bit(x, i) == 0
    ensures Ctz(x, w) == r
  {
  }

  lemma CtzOfPow2(r: nat, w: nat)
    requires r < w
    ensures 0 < Pow2(r) < Pow2(w)
    ensures Ctz(Pow2(r), w) == r
  {
    Pow2Monotonic(r + 1, w);
    BitOfPow2(r, r);
    forall i | 0 <= i < r
      ensures Bit(Pow2(r), i) == 0
    {
      BitOfPow2(r, i);
    }
    CtzUnique(Pow2(r), w, r);
  }

  // ---------------------------------------------------------------------
  // Splitting a value into a low and a high part

  lemma {:induction false} LowBits(x: nat, a: nat, i: nat)
    requires i < a
    ensures Bit(Low(x, a), i) == Bit(x, i)
  {
    HalveLowHigh(x, a);
    if i > 0 {
      LowBits(x / 2, a - 1, i - 1);
    }
  }

  lemma {:induction false} HighBits(x: nat, a: nat, i: nat)
    ensures Bit(High(x, a), i) == Bit(x, a + i)
  {
    if a > 0 {
      HalveLowHigh(x, a);
      HighBits(x / 2, a - 1, i);
    }
  }

  lemma {:induction false} HighBound(x: nat, a: nat, b: nat)
    requires x < Pow2(a + b)
    ensures High(x, a) < Pow2(b)
  {
    if a > 0 {
      HalveLowHigh(x, a);
      HighBound(x / 2, a - 1, b);
    }
  }

  /** A nonzero value with no low bits set has high bits set. */
  lemma LowZeroHighNonzero(x: nat, a: nat)
    requires x > 0 && Low(x, a) == 0
    ensures High(x, a) > 0
  {
    var p := Pow2(a);
    assert x == p * (x / p) + x % p;
  }

  /** Counting the bits of the two parts counts every bit exactly once. */
  lemma {:induction false} PopcountSplit(x: nat, a: nat, b: nat)
    ensures Popcount(x, a + b) == Popcount(Low(x, a), a) + Popcount(High(x, a), b)
  {
    if a > 0 {
      HalveLowHigh(x, a);
      PopcountSplit(x / 2, a - 1, b);
    }
  }

  // ---------------------------------------------------------------------
  // Isolating and clearing the lowest set bit

  lemma {:induction false} AndComplementIsZero(y: nat, v: nat)
    requires y < Pow2(v)
    ensures And(y, Pow2(v) - 1 - y, v) == 0
  {
    if v > 0 {
      var p := Pow2(v - 1);
      assert (Pow2(v) - 1 - y) / 2 == p - 1 - y / 2;
      AndComplementIsZero(y / 2, v - 1);
    }
  }

  /** `x & -x` is the power of two at the lowest set bit of `x`. */
  lemma {:induction false} AndNegIsLowestBit(x: nat, w: nat)
    requires 0 < x < Pow2(w)
    ensures And(x, Neg(x, w), w) == Pow2(Ctz(x, w))
  {
    var p := Pow2(w - 1);
    if x % 2 == 1 {
      assert Neg(x, w) / 2 == p - 1 - x / 2;
      AndComplementIsZero(x / 2, w - 1);
    } else {
      assert Neg(x, w) / 2 == Neg(x / 2, w - 1);
      AndNegIsLowestBit(x / 2, w - 1);
    }
  }

  lemma AndOfZero(y: nat, w: nat)
    ensures And(0, y, w) == 0
  {
    if w > 0 { AndOfZero(y / 2, w - 1); }
  }

  /** A power of two at a set bit of `x` survives `& x`. */
  lemma {:induction false} AndPow2AtSetBit(x: nat, r: nat, w: nat)
    requires r < w && Bit(x, r) == 1
    ensures And(Pow2(r), x, w) == Pow2(r)
  {
    if r == 0 {
      AndOfZero(x / 2, w - 1);
    } else {
      AndPow2AtSetBit(x / 2, r - 1, w - 1);
    }
  }

  lemma XorOfZero(y: nat, w: nat)
    requires y < Pow2(w)
    ensures Xor(y, 0, w) == y
  {
    if w > 0 { XorOfZero(y / 2, w - 1); }
  }

  /** Flipping a set bit with `^` subtracts its weight. */
  lemma {:induction false} XorSetBit(x: nat, r: nat, w: nat)
    requires x < Pow2(w) && r < w && Bit(x, r) == 1
    ensures x >= Pow2(r)
    ensures Xor(x, Pow2(r), w) == x - Pow2(r)
  {
    if r == 0 {
      XorOfZero(x / 2, w - 1);
    } else {
      var h := Pow2(r - 1);
      assert Pow2(r) % 2 == 0 && Pow2(r) / 2 == h;
      XorSetBit(x / 2, r - 1, w - 1);
      assert Xor(x, Pow2(r), w) == x % 2 + 2 * (x / 2 - h);
    }
  }

  /** Subtracting the weight of a set bit clears that bit and no other. */
  lemma {:induction false} ClearSetBit(x: nat, r: nat, i: nat)
    requires Bit(x, r) == 1
    ensures x >= Pow2(r)
    ensures Bit(x - Pow2(r), i) == if i == r then 0 else Bit(x, i)
  {
    if r == 0 {
      if i > 0 {
        assert (x - 1) / 2 == x / 2;
      }
    } else {
      assert (x - Pow2(r)) / 2 == x / 2 - Pow2(r - 1);
      if i > 0 {
        ClearSetBit(x / 2, r - 1, i - 1);
      } else {
        ClearSetBit(x / 2, r - 1, 0);
      }
    }
  }

  /** Clearing one set bit below the width lowers the population count by one. */
  lemma {:induction false} PopcountClearSetBit(x: nat, r: nat, w: nat)
    requires r < w && Bit(x, r) == 1
    ensures x >= Pow2(r)
    ensures Popcount(x - Pow2(r), w) == Popcount(x, w) - 1
  {
    if r == 0 {
      assert (x - 1) / 2 == x / 2;
    } else {
      PopcountClearSetBit(x / 2, r - 1, w - 1);
      assert (x - Pow2(r)) / 2 == x / 2 - Pow2(r - 1);
    }
  }
}

=== FILE: bitops.dfy ===
/** The mask utilities of kernel/pfq/bitops.h: population count and
    count-trailing-zeros over 32-, 64- and 128-bit unsigned masks, and the
    loop that enumerates the set bits of a mask. */
module Bitops {

  import opened Wrappers
  import opened BitMath

  /** `__builtin_ctz`, `__builtin_ctzl`, `__builtin_ctzll` on a `w`-bit
      operand. The compiler leaves the result undefined for a zero operand;
      here that is `None`. */
  function BuiltinCtz(x: nat, w: nat): (r: Option<nat>)
    requires x < Pow2(w)
    ensures r.None? <==> x == 0
    ensures r.Some? ==> r.value < w && Bit(x, r.value) == 1
    ensures r.Some? ==> forall i :: 0 <= i < r.value ==> Bit(x, i) == 0
  {
    if x == 0 then None else Some(Ctz(x, w))
  }

  /** `__128bit_popcount`: the counts of the two 64-bit halves, added. */
  function Popcount128(x: nat): (n: nat)
    requires x < Pow2(128)
    ensures n == Popcount(x, 128)
  {
    PopcountSplit(x, 64, 64);
    Popcount(Low(x, 64), 64) + Popcount(High(x, 64), 64)
  }

  /** `__128bit_ctz`: both halves' ctz are computed unconditionally, and the
      low half's is taken when the low half is nonzero. */
  function Ctz128(x: nat): (r: nat)
    requires 0 < x < Pow2(128)
    ensures r == Ctz(x, 128)
    ensures r < 64 <==> Low(x, 64) != 0
  {
    HighBound(x, 64, 64);
    var a := BuiltinCtz(Low(x, 64), 64);
    var b := BuiltinCtz(High(x, 64), 64);
    if Low(x, 64) != 0 then
      Ctz128LowHalf(x, a.value);
      a.value
    else
      LowZeroHighNonzero(x, 64);
      Ctz128HighHalf(x, b.value);
      b.value + 64
  }

  lemma Ctz128LowHalf(x: nat, a: nat)
    requires 0 < x < Pow2(128) && a < 64
    requires Bit(Low(x, 64), a) == 1
    requires forall i :: 0 <= i < a ==> Bit(Low(x, 64), i) == 0
    ensures Ctz(x, 128) == a
  {
    LowBits(x, 64, a);
    forall i | 0 <= i < a
      ensures Bit(x, i) == 0
    {
      LowBits(x, 64, i);
    }
    CtzUnique(x, 128, a);
  }

  lemma Ctz128HighHalf(x: nat, b: nat)
    requires 0 < x < Pow2(128) && b < 64 && Low(x, 64) == 0
    requires Bit(High(x, 64), b) == 1
    requires forall i :: 0 <= i < b ==> Bit(High(x, 64), i) == 0
    ensures Ctz(x, 128) == b + 64
  {
    HighBits(x, 64, b);
    LowHalfZero(x);
    forall i | 64 <= i < b + 64
      ensures Bit(x, i) == 0
    {
      var j := i - 64;
      assert Bit(High(x, 64), j) == 0;
      HighBits(x, 64, j);
      assert 64 + j == i;
    }
    CtzUnique(x, 128, b + 64);
  }

  lemma LowHalfZero(x: nat)
    requires Low(x, 64) == 0
    ensures forall i :: 0 <= i < 64 ==> Bit(x, i) == 0
  {
    forall i | 0 <= i < 64
      ensures Bit(x, i) == 0
    {
      LowBits(x, 64, i);
      BitOfZero(i);
    }
  }

  /** The unsigned C types `pfq_ctz` and `pfq_popcount` accept. `unsigned
      long` is 64 bits wide, as on the LP64 targets the kernel module is
      built for. */
  datatype CType = UInt | ULong | UInt128 | ULongLong

  function Width(t: CType): nat
  {
    match t
    case UInt => 32
    case ULong => 64
    case UInt128 => 128
    case ULongLong => 64
  }

  /** `pfq_ctz`: the index of the lowest set bit, by operand type. */
  function PfqCtz(t: CType, x: nat): (r: nat)
    requires 0 < x < Pow2(Width(t))
    ensures r < Width(t)
    ensures Bit(x, r) == 1
    ensures forall i :: 0 <= i < r ==> Bit(x, i) == 0
  {
    match t
    case UInt128 => Ctz128(x)
    case _ => BuiltinCtz(x, Width(t)).value
  }

  /** `pfq_popcount`: the number of set bits, by operand type. */
  function PfqPopcount(t: CType, x: nat): (n: nat)
    requires x < Pow2(Width(t))
    ensures n == Popcount(x, Width(t))
    ensures n <= Width(t)
  {
    PopcountBound(x, Width(t));
    match t
    case UInt128 => Popcount128(x)
    case _ => Popcount(x, Width(t))
  }

  lemma PopcountBound(x: nat, w: nat)
    ensures Popcount(x, w) <= w
  {
    if w > 0 { PopcountBound(x / 2, w - 1); }
  }

  /** `n = mask & -mask`, as computed in the loop condition of
      `pfq_bitwise_foreach` (also when the mask is zero). */
  function LowestBit(mask: nat, w: nat): (n: nat)
    requires mask < Pow2(w)
    ensures mask == 0 ==> n == 0
    ensures mask != 0 ==> n == Pow2(Ctz(mask, w))
    ensures And(n, mask, w) == n
  {
    if mask == 0 then
      AndOfZero(0, w);
      AndOfZero(Neg(0, w), w);
      And(mask, Neg(mask, w), w)
    else
      AndNegIsLowestBit(mask, w);
      AndPow2AtSetBit(mask, Ctz(mask, w), w);
      And(mask, Neg(mask, w), w)
  }

  /** `mask ^= n` with `n` the lowest set bit: exactly that bit is cleared,
      the mask shrinks and loses one set bit. */
  lemma ClearLowestBit(mask: nat, w: nat)
    requires 0 < mask < Pow2(w)
    ensures Xor(mask, LowestBit(mask, w), w) < mask
    ensures Popcount(Xor(mask, LowestBit(mask, w), w), w) == Popcount(mask, w) - 1
    ensures forall i :: Bit(Xor(mask, LowestBit(mask, w), w), i) ==
                          if i == Ctz(mask, w) then 0 else Bit(mask, i)
  {
    var r := Ctz(mask, w);
    XorSetBit(mask, r, w);
    PopcountClearSetBit(mask, r, w);
    forall i
      ensures Bit(mask - Pow2(r), i) == if i == r then 0 else Bit(mask, i)
    {
      ClearSetBit(mask, r, i);
    }
  }

  /** `pfq_bitwise_foreach(m, n, body)`: the loop runs on a copy of `m`; in
      each iteration `n` is the isolated lowest set bit and the body
      typically takes `pfq_ctz(n)`. Returns the values of `n` in visiting
      order and their bit indices. The body is taken to neither assign `n`
      nor leave the loop early; such a body would change which bits
      `mask ^= n` clears or when the loop stops. */
  method BitwiseForeach(m: nat, w: nat) returns (isolated: seq<nat>, positions: seq<nat>)
    requires m < Pow2(w)
    ensures |isolated| == |positions| == Popcount(m, w)
    ensures forall k :: 0 <= k < |positions| ==> isolated[k] == Pow2(positions[k])
    ensures forall k, l :: 0 <= k < l < |positions| ==> positions[k] < positions[l]
    ensures forall i: nat :: i in positions <==> i < w && Bit(m, i) == 1
  {
    isolated, positions := [], [];
    var mask: nat := m;
    var n: nat := LowestBit(mask, w);
    while mask != 0
      invariant mask < Pow2(w)
      invariant n == LowestBit(mask, w)
      invariant |isolated| == |positions|
      invariant |positions| + Popcount(mask, w) == Popcount(m, w)
      invariant forall k :: 0 <= k < |positions| ==> isolated[k] == Pow2(positions[k])
      invariant forall k :: 0 <= k < |positions| ==> positions[k] < w
      invariant forall k, l :: 0 <= k < l < |positions| ==> positions[k] < positions[l]
      invariant forall k, i :: 0 <= k < |positions| && Bit(mask, i) == 1 ==> positions[k] < i
      invariant forall i :: 0 <= i < w ==> (Bit(m, i) == 1 <==> (i in positions || Bit(mask, i) == 1))
      decreases mask
    {
      var r := Ctz(mask, w);
      CtzOfPow2(r, w);
      ClearLowestBit(mask, w);
      isolated := isolated + [n];
      positions := positions + [Ctz(n, w)];
      mask := Xor(mask, n, w);
      n := LowestBit(mask, w);
    }
    forall i
      ensures Bit(mask, i) == 0
    {
      BitOfZero(i);
    }
    PopcountOfZero(w);
  }
}

=== FILE: errno.dfy ===
/** The Linux error numbers the modelled code returns; callers return them
    negated, as the kernel does. */
module Errno {

  const EPERM := 1
  const ENOMEM := 12
  const EFAULT := 14
  const EBUSY := 16
  const EINVAL := 22
  const EPROTONOSUPPORT := 93
  const ESOCKTNOSUPPORT := 94
}

=== FILE: forward.dfy ===
/** The steering actions of kernel/engine/lang/forward.c, their init/fini
    hooks and the `forward_functions` table.

    A device handle is `Option<DevId>` (`None` is NULL), the
    outcome of a predicate argument is a boolean, and what an action does to
    the outside world is a list of events plus the counter increments it
    makes: `group` for the per-group statistics, `global` for the
    process-wide ones. */
module Forward {

  import opened Wrappers
  import opened Errno

  type DevId = nat

  datatype Verdict = Pass | Drop

  datatype Event =
    | LazyXmit(dev: DevId)   // `pfq_lazy_xmit`: queued for deferred transmission
    | Xmit(dev: DevId)       // `pfq_xmit` of a clone, at once
    | ToKernel               // `to_kernel`: handed to the kernel stack

  /** Counter increments made by one call. */
  datatype Stats = Stats(frwd: nat, disc: nat)

  datatype Outcome = Outcome(verdict: Verdict, events: seq<Event>, group: Stats, global: Stats)

  const NoStats := Stats(0, 0)

  /** The devices an outcome transmits to, in order. */
  function Sent(events: seq<Event>): seq<DevId>
  {
    if events == [] then []
    else (if events[0].ToKernel? then [] else [events[0].dev]) + Sent(events[1..])
  }

  predicate HandedToKernel(o: Outcome)
  {
    ToKernel in o.events
  }

  /** Deferred transmission of the packet to `dev`, counted in `frwd`. */
  function SendTo(v: Verdict, dev: DevId): Outcome
  {
    Outcome(v, [LazyXmit(dev)], Stats(1, 0), NoStats)
  }

  function Untouched(v: Verdict): Outcome
  {
    Outcome(v, [], NoStats, NoStats)
  }

  /** `forward`: always Pass; transmits, and counts, only when the device
      handle is not NULL. */
  function ForwardAct(dev: Option<DevId>): (o: Outcome)
    ensures o.verdict == Pass
    ensures forall e :: e in o.events ==> e.LazyXmit?
    ensures Sent(o.events) == if dev.Some? then [dev.value] else []
    ensures o.group.frwd == |o.events| && o.group.disc == 0 && o.global == NoStats
  {
    if dev.None? then Untouched(Pass) else SendTo(Pass, dev.value)
  }

  /** `bridge`: always Drop; transmits, and counts, only when the device
      handle is not NULL. */
  function BridgeAct(dev: Option<DevId>): (o: Outcome)
    ensures o.verdict == Drop
    ensures forall e :: e in o.events ==> e.LazyXmit?
    ensures Sent(o.events) == if dev.Some? then [dev.value] else []
    ensures o.group.frwd == |o.events| && o.group.disc == 0 && o.global == NoStats
  {
    if dev.None? then Untouched(Drop) else SendTo(Drop, dev.value)
  }

  /** `tap`: NULL device drops silently; a packet the predicate accepts goes
      on untouched; any other is sent to the device and dropped. */
  function TapAct(dev: Option<DevId>, pred: bool): (o: Outcome)
    ensures o.verdict == Pass <==> dev.Some? && pred
    ensures forall e :: e in o.events ==> e.LazyXmit?
    ensures Sent(o.events) == if dev.Some? && !pred then [dev.value] else []
    ensures o.group.frwd == |o.events| && o.group.disc == 0 && o.global == NoStats
  {
    if dev.None? then Untouched(Drop)
    else if pred then Untouched(Pass)
    else SendTo(Drop, dev.value)
  }

  /** `tee`: NULL device drops silently; otherwise the packet is sent to the
      device once and goes on exactly when the predicate holds. */
  function TeeAct(dev: Option<DevId>, pred: bool): (o: Outcome)
    ensures o.verdict == Pass <==> dev.Some? && pred
    ensures forall e :: e in o.events ==> e.LazyXmit?
    ensures Sent(o.events) == if dev.Some? then [dev.value] else []
    ensures o.group.frwd == |o.events| && o.group.disc == 0 && o.global == NoStats
  {
    if dev.None? then Untouched(Drop)
    else SendTo(if pred then Pass else Drop, dev.value)
  }

  /** `forward_if_kernel` (symbol `kernel_if`): always Pass; a copy goes to
      the kernel exactly when the predicate holds. */
  function KernelIfAct(pred: bool): (o: Outcome)
    ensures o.verdict == Pass
    ensures HandedToKernel(o) <==> pred
    ensures Sent(o.events) == [] && o.group == NoStats && o.global == NoStats
  {
    Outcome(Pass, if pred then [ToKernel] else [], NoStats, NoStats)
  }

  /** `detour_if_kernel` (symbol `detour_if`): a packet the predicate
      accepts is handed to the kernel and dropped from the pipeline; any
      other goes on untouched. */
  function DetourIfAct(pred: bool): (o: Outcome)
    ensures o.verdict == Drop <==> pred
    ensures HandedToKernel(o) <==> pred
    ensures Sent(o.events) == [] && o.group == NoStats && o.global == NoStats
  {
    if pred then Outcome(Drop, [ToKernel], NoStats, NoStats) else Untouched(Pass)
  }

  /** `forwardIO`: an immediate transmission of a clone. `cloneOk` is whether
      `skb_clone` succeeded and `xmitSent` what `pfq_xmit` returned. Always
      Pass; exactly one of `frwd` and `disc` is bumped, in the group and in
      the global counters alike, and `frwd` only when the clone went out. */
  function ForwardIOAct(dev: Option<DevId>, cloneOk: bool, xmitSent: int): (o: Outcome)
    ensures o.verdict == Pass
    ensures o.group == o.global
    ensures o.group.frwd + o.group.disc == 1
    ensures o.group.frwd == 1 <==> dev.Some? && cloneOk && xmitSent == 1
    ensures Sent(o.events) == if dev.Some? && cloneOk then [dev.value] else []
    ensures forall e :: e in o.events ==> e.Xmit?
  {
    if dev.None? || !cloneOk then
      Outcome(Pass, [], Stats(0, 1), Stats(0, 1))
    else if xmitSent != 1 then
      Outcome(Pass, [Xmit(dev.value)], Stats(0, 1), Stats(0, 1))
    else
      Outcome(Pass, [Xmit(dev.value)], Stats(1, 0), Stats(1, 0))
  }

  /** `link`: walks its device array in order and sends to every non-NULL
      device other than the one the packet arrived on (`ingress`), counting
      each transmission; always Pass. A device listed twice is sent to
      twice. */
  function LinkAct(devs: seq<Option<DevId>>, ingress: DevId): (o: Outcome)
    ensures o.verdict == Pass
    ensures forall e :: e in o.events ==> e.LazyXmit?
    ensures forall d: DevId :: multiset(o.events)[LazyXmit(d)] ==
                                 if d == ingress then 0 else multiset(devs)[Some(d)]
    ensures o.group.frwd == |o.events| && o.group.disc == 0 && o.global == NoStats
  {
    if devs == [] then Untouched(Pass)
    else
      var rest := LinkAct(devs[1..], ingress);
      assert devs == [devs[0]] + devs[1..];
      if devs[0].Some? && devs[0].value != ingress then
        Outcome(Pass, [LazyXmit(devs[0].value)] + rest.events, Stats(rest.group.frwd + 1, 0), NoStats)
      else
        rest
  }

  /** The devices of `devs`, in array order, that are not NULL and not the
      ingress device. */
  function Targets(devs: seq<Option<DevId>>, ingress: DevId): seq<DevId>
  {
    if devs == [] then []
    else (if devs[0].Some? && devs[0].value != ingress then [devs[0].value] else []) + Targets(devs[1..], ingress)
  }

  /** `Targets` is determined slot by slot: one slot yields its device when
      that is not NULL and not the ingress device, and two arrays placed end
      to end yield their targets end to end. */
  lemma {:induction false} TargetsSplit(a: seq<Option<DevId>>, b: seq<Option<DevId>>, d: Option<DevId>, ingress: DevId)
    ensures Targets([d], ingress) == if d.Some? && d.value != ingress then [d.value] else []
    ensures Targets(a + b, ingress) == Targets(a, ingress) + Targets(b, ingress)
  {
    assert [d][1..] == [];
    if a == [] {
      assert a + b == b;
    } else {
      TargetsSplit(a[1..], b, d, ingress);
      assert (a + b)[1..] == a[1..] + b;
    }
  }

  /** `link` transmits in array order, to exactly the `Targets`. */
  lemma {:induction false} LinkSendsInOrder(devs: seq<Option<DevId>>, ingress: DevId)
    ensures Sent(LinkAct(devs, ingress).events) == Targets(devs, ingress)
  {
    if devs != [] {
      LinkSendsInOrder(devs[1..], ingress);
      var rest := LinkAct(devs[1..], ingress).events;
      if devs[0].Some? && devs[0].value != ingress {
        var events := [LazyXmit(devs[0].value)] + rest;
        assert events[1..] == rest;
      }
    }
  }

  /** Length of `Sent` when the kernel is not involved. */
  lemma {:induction false} SentCountsTransmissions(events: seq<Event>)
    requires ToKernel !in events
    ensures |Sent(events)| == |events|
  {
    if events != [] {
      assert ToKernel !in events[1..] by {
        assert forall k :: 0 <= k < |events[1..]| ==> events[1..][k] == events[k + 1];
      }
      SentCountsTransmissions(events[1..]);
    }
  }

  // -----------------------------------------------------------------------
  // The actions as one type

  /** The actions of this file, each with its initialised arguments. */
  datatype Action =
    | Forward(dev: Option<DevId>)
    | ForwardIO(dev: Option<DevId>, cloneOk: bool, xmitSent: int)
    | Bridge(dev: Option<DevId>)
    | Link(devs: seq<Option<DevId>>)
    | Tap(dev: Option<DevId>, pred: bool)
    | Tee(dev: Option<DevId>, pred: bool)
    | KernelIf(pred: bool)
    | DetourIf(pred: bool)

  /** One action applied to a packet that arrived on device `ingress`. */
  function Eval(a: Action, ingress: DevId): Outcome
  {
    match a
    case Forward(dev) => ForwardAct(dev)
    case ForwardIO(dev, cloneOk, sent) => ForwardIOAct(dev, cloneOk, sent)
    case Bridge(dev) => BridgeAct(dev)
    case Link(devs) => LinkAct(devs, ingress)
    case Tap(dev, pred) => TapAct(dev, pred)
    case Tee(dev, pred) => TeeAct(dev, pred)
    case KernelIf(pred) => KernelIfAct(pred)
    case DetourIf(pred) => DetourIfAct(pred)
  }

  /** Counter discipline shared by all actions: `frwd` never exceeds the
      transmissions made, and equals them for every action but `forwardIO`,
      whose failed transmissions go to `disc`; only `forwardIO` touches the
      global counters or `disc`. */
  lemma CountersMatchTransmissions(a: Action, ingress: DevId)
    ensures Eval(a, ingress).group.frwd <= |Sent(Eval(a, ingress).events)|
    ensures !a.ForwardIO? ==> Eval(a, ingress).group.frwd == |Sent(Eval(a, ingress).events)|
    ensures !a.ForwardIO? ==> Eval(a, ingress).group.disc == 0 && Eval(a, ingress).global == NoStats
    ensures a.ForwardIO? ==> Eval(a, ingress).group == Eval(a, ingress).global
  {
    if a.Link? {
      var o := LinkAct(a.devs, ingress);
      SentCountsTransmissions(o.events);
    }
  }

  /** `tap` and `tee` reach the same verdict on every input; they differ only
      in that `tee` also copies a packet the predicate accepts. */
  lemma TapTeeSameVerdict(dev: Option<DevId>, pred: bool)
    ensures TapAct(dev, pred).verdict == TeeAct(dev, pred).verdict
    ensures Sent(TapAct(dev, pred).events) != Sent(TeeAct(dev, pred).events) <==> dev.Some? && pred
  {
  }

  /** `bridge` is `forward` followed by a drop. */
  lemma BridgeIsForwardThenDrop(dev: Option<DevId>)
    ensures BridgeAct(dev) == ForwardAct(dev).(verdict := Drop)
  {
  }

  /** `detour_if` hands the same packets to the kernel as `kernel_if`, and
      drops exactly those. */
  lemma DetourIfIsKernelIfThenDrop(pred: bool)
    ensures DetourIfAct(pred).events == KernelIfAct(pred).events
    ensures DetourIfAct(pred).verdict == if HandedToKernel(KernelIfAct(pred)) then Drop else Pass
  {
  }

  /** `link` over one device other than the ingress device is `forward`. */
  lemma LinkOfOneIsForward(d: DevId, ingress: DevId)
    ensures d != ingress ==> LinkAct([Some(d)], ingress) == ForwardAct(Some(d))
    ensures d == ingress ==> LinkAct([Some(d)], ingress) == Untouched(Pass)
  {
  }

  // -----------------------------------------------------------------------
  // Init and fini hooks

  /** The single argument slot of `forward`, `forwardIO`, `bridge`, `tee` and
      `tap`: the device name until init has resolved it, the device after. */
  datatype Slot = Name(name: string) | Dev(dev: DevId)

  datatype InitResult = InitResult(ret: int, slot: Slot, acquired: multiset<DevId>)

  datatype LinkInitResult = LinkInitResult(ret: int, slots: seq<Option<DevId>>, acquired: multiset<DevId>)

  datatype FiniResult = FiniResult(ret: int, released: multiset<DevId>)

  /** `forward_init`. `devices` is the name table `dev_get_by_name` searches;
      a successful lookup takes a reference on the device and overwrites the
      slot with it. */
  function ForwardInit(name: string, devices: map<string, DevId>): (r: InitResult)
    ensures r.ret == 0 <==> name in devices
    ensures r.ret != 0 ==> r.ret == -EINVAL && r.slot == Name(name) && r.acquired == multiset{}
    ensures r.ret == 0 ==> r.slot == Dev(devices[name]) && r.acquired == multiset{devices[name]}
  {
    if name !in devices then InitResult(-EINVAL, Name(name), multiset{})
    else
      var dev := devices[name];
      InitResult(0, Dev(dev), multiset{dev})
  }

  /** `forward_fini`: drops the reference on a non-NULL device. */
  function ForwardFini(dev: Option<DevId>): (r: FiniResult)
    ensures r.ret == 0
    ensures r.released == if dev.Some? then multiset{dev.value} else multiset{}
  {
    if dev.Some? then FiniResult(0, multiset{dev.value}) else FiniResult(0, multiset{})
  }

  /** After a successful `forward_init`, `forward_fini` on the resolved
      device releases exactly the reference init took. */
  lemma ForwardInitFiniBalanced(name: string, devices: map<string, DevId>)
    requires ForwardInit(name, devices).ret == 0
    ensures ForwardFini(Some(ForwardInit(name, devices).slot.dev)).released ==
            ForwardInit(name, devices).acquired
  {
  }

  /** `link_init`: always returns 0; each name that resolves is replaced by
      its device (taking a reference), each that does not by NULL. */
  function LinkInit(names: seq<string>, devices: map<string, DevId>): (r: LinkInitResult)
    ensures r.ret == 0
    ensures |r.slots| == |names|
    ensures forall n :: 0 <= n < |names| ==>
              r.slots[n] == if names[n] in devices then Some(devices[names[n]]) else None
    ensures forall d: DevId :: r.acquired[d] == multiset(r.slots)[Some(d)]
  {
    if names == [] then LinkInitResult(0, [], multiset{})
    else
      var rest := LinkInit(names[1..], devices);
      var slot := if names[0] in devices then Some(devices[names[0]]) else None;
      var got := if names[0] in devices then multiset{devices[names[0]]} else multiset{};
      LinkInitStep(names, devices, rest.slots, rest.acquired);
      LinkInitResult(0, [slot] + rest.slots, got + rest.acquired)
  }

  /** One step of `link_init`: resolving the first name in front of the
      already resolved rest keeps the slots and the references in step. */
  lemma LinkInitStep(names: seq<string>, devices: map<string, DevId>,
                     slots: seq<Option<DevId>>, acquired: multiset<DevId>)
    requires names != []
    requires |slots| == |names| - 1
    requires forall n :: 0 <= n < |slots| ==>
               slots[n] == if names[n + 1] in devices then Some(devices[names[n + 1]]) else None
    requires forall d: DevId :: acquired[d] == multiset(slots)[Some(d)]
    ensures var slot := if names[0] in devices then Some(devices[names[0]]) else None;
            var got := if names[0] in devices then multiset{devices[names[0]]} else multiset{};
            && (forall n :: 0 <= n < |names| ==>
                  ([slot] + slots)[n] == if names[n] in devices then Some(devices[names[n]]) else None)
            && (forall d: DevId :: (got + acquired)[d] == multiset([slot] + slots)[Some(d)])
  {
    var slot := if names[0] in devices then Some(devices[names[0]]) else None;
    var got := if names[0] in devices then multiset{devices[names[0]]} else multiset{};
    forall n | 0 <= n < |names|
      ensures ([slot] + slots)[n] == if names[n] in devices then Some(devices[names[n]]) else None
    {
      if n > 0 {
        assert ([slot] + slots)[n] == slots[n - 1];
      }
    }
    assert multiset([slot] + slots) == multiset{slot} + multiset(slots);
    forall d: DevId ensures (got + acquired)[d] == multiset([slot] + slots)[Some(d)] {
      assert got[d] == multiset{slot}[Some(d)];
    }
  }

  /** `link_fini`: drops the reference on every non-NULL device of the array. */
  function LinkFini(slots: seq<Option<DevId>>): (r: FiniResult)
    ensures r.ret == 0
    ensures forall d: DevId :: r.released[d] == multiset(slots)[Some(d)]
  {
    if slots == [] then FiniResult(0, multiset{})
    else
      var rest := LinkFini(slots[1..]);
      assert slots == [slots[0]] + slots[1..];
      FiniResult(0, (if slots[0].Some? then multiset{slots[0].value} else multiset{}) + rest.released)
  }

  /** `link_fini` after `link_init` releases exactly the references init
      took, device by device. */
  lemma LinkInitFiniBalanced(names: seq<string>, devices: map<string, DevId>)
    ensures LinkFini(LinkInit(names, devices).slots).released == LinkInit(names, devices).acquired
  {
    var r := LinkInit(names, devices);
    var f := LinkFini(r.slots);
    assert forall d: DevId :: f.released[d] == r.acquired[d];
  }

  // -----------------------------------------------------------------------
  // The `forward_functions` table

  /** Which init/fini pair a table entry registers: none, `forward_init` /
      `forward_fini`, or `link_init` / `link_fini`. */
  datatype Hooks = NoHooks | DeviceHooks | LinkHooks

  /** Argument types that occur in the table's signatures: `CInt`,
      `String`, `[String]` and `(SkBuff -> Bool)`. */
  datatype ArgType = CInt | Str | StrList | Predicate

  /** A table entry. Every signature of the table ends in
      `SkBuff -> Action SkBuff`; `args` lists the argument types before it,
      so `String -> (SkBuff -> Bool) -> SkBuff -> Action SkBuff` is
      `[Str, Predicate]`. */
  datatype FunctionDescr = FunctionDescr(symbol: string, args: seq<ArgType>, hooks: Hooks)

  /** `forward_functions`, without its NULL terminator. */
  const ForwardFunctions: seq<FunctionDescr> := [
    FunctionDescr("drop", [], NoHooks),
    FunctionDescr("broadcast", [], NoHooks),
    FunctionDescr("classify", [CInt], NoHooks),
    FunctionDescr("kernel", [], NoHooks),
    FunctionDescr("detour", [], NoHooks),
    FunctionDescr("kernel_if", [Predicate], NoHooks),
    FunctionDescr("detour_if", [Predicate], NoHooks),
    FunctionDescr("forwardIO", [Str], DeviceHooks),
    FunctionDescr("forward", [Str], DeviceHooks),
    FunctionDescr("link", [StrList], LinkHooks),
    FunctionDescr("bridge", [Str], DeviceHooks),
    FunctionDescr("tee", [Str, Predicate], DeviceHooks),
    FunctionDescr("tap", [Str, Predicate], DeviceHooks)
  ]

  /** The hooks a signature calls for: a leading device name has to be
      resolved to a device and released, a leading list of names likewise
      element by element; anything else needs no hooks. */
  function HooksFor(args: seq<ArgType>): Hooks
  {
    if args == [] then NoHooks
    else if args[0] == Str then DeviceHooks
    else if args[0] == StrList then LinkHooks
    else NoHooks
  }

  /** The table is consistent: no symbol is registered twice, and every
      entry registers exactly the hooks its signature calls for. */
  lemma ForwardFunctionsConsistent()
    ensures forall i, j :: 0 <= i < j < |ForwardFunctions| ==>
              ForwardFunctions[i].symbol != ForwardFunctions[j].symbol
    ensures forall i :: 0 <= i < |ForwardFunctions| ==>
              ForwardFunctions[i].hooks == HooksFor(ForwardFunctions[i].args)
  {
  }

  /** The table symbol under which each modelled action is registered. */
  function SymbolOf(a: Action): string
  {
    match a
    case Forward(_) => "forward"
    case ForwardIO(_, _, _) => "forwardIO"
    case Bridge(_) => "bridge"
    case Link(_) => "link"
    case Tap(_, _) => "tap"
    case Tee(_, _) => "tee"
    case KernelIf(_) => "kernel_if"
    case DetourIf(_) => "detour_if"
  }

  /** The arguments each modelled action takes, as signature types. */
  function ArgsOf(a: Action): seq<ArgType>
  {
    match a
    case Forward(_) => [Str]
    case ForwardIO(_, _, _) => [Str]
    case Bridge(_) => [Str]
    case Link(_) => [StrList]
    case Tap(_, _) => [Str, Predicate]
    case Tee(_, _) => [Str, Predicate]
    case KernelIf(_) => [Predicate]
    case DetourIf(_) => [Predicate]
  }

  /** Entry `k` of the table registers `symbol` with the given arguments. */
  predicate RegisteredAt(k: nat, symbol: string, args: seq<ArgType>)
  {
    k < |ForwardFunctions| && ForwardFunctions[k].symbol == symbol && ForwardFunctions[k].args == args
  }

  /** Every modelled action is registered, under a signature that matches
      the arguments it reads, and with the init/fini hooks that turn its
      device names into the device handles it is given. */
  lemma ActionsRegistered(a: Action)
    ensures exists k: nat :: RegisteredAt(k, SymbolOf(a), ArgsOf(a))
    ensures forall k: nat :: RegisteredAt(k, SymbolOf(a), ArgsOf(a)) ==>
              ForwardFunctions[k].hooks == HooksFor(ArgsOf(a))
  {
    ForwardFunctionsConsistent();
    var k: nat := match a
      case Forward(_) => 8
      case ForwardIO(_, _, _) => 7
      case Bridge(_) => 10
      case Link(_) => 9
      case Tap(_, _) => 12
      case Tee(_, _) => 11
      case KernelIf(_) => 5
      case DetourIf(_) => 6;
    assert RegisteredAt(k, SymbolOf(a), ArgsOf(a));
  }
}

=== FILE: global.dfy ===
/** The process-wide configuration record of kernel/engine/global.c and its
    default values. */
module Global {

  /** `struct global_data`. The four switches are modelled as booleans (the
      C fields are integers read as truth values); the numeric knobs keep
      the C `int` range so that the load-time checks on them can be stated.
      `txAffinity` is the per-thread CPU array, one entry per possible Tx
      thread. */
  datatype GlobalData = GlobalData(
    captureIncoming: bool,
    captureOutgoing: bool,
    captSlotSize: int,
    xmitSlotSize: int,
    xmitBatchLen: int,
    captBatchLen: int,
    vlUntag: bool,
    skbPoolSize: int,
    txAffinity: seq<int>,
    txThreadNr: int,
    txRateControlEager: bool)

  /** A sensible configuration: positive slot sizes, batch lengths of at
      least one, a non-negative pool size, and no more Tx threads than
      affinity entries. The load-time checks of kernel/pf_q.c test only
      the batch lengths and the upper bound of the pool size. */
  predicate WellFormed(g: GlobalData)
  {
    && g.captSlotSize > 0
    && g.xmitSlotSize > 0
    && g.captBatchLen >= 1
    && g.xmitBatchLen >= 1
    && g.skbPoolSize >= 0
    && 0 <= g.txThreadNr <= |g.txAffinity|
  }

  /** Whether the packet handler has to be installed at all. */
  predicate CapturesAnything(g: GlobalData)
  {
    g.captureIncoming || g.captureOutgoing
  }

  /** `default_global`; `maxCpu` is the length of the `tx_affinity` array,
      whose bound is not part of this model. The `{0}` initialiser zeroes
      every entry. */
  function DefaultGlobal(maxCpu: nat): GlobalData
  {
    GlobalData(
      captureIncoming := true,
      captureOutgoing := false,
      captSlotSize := 1514,
      xmitSlotSize := 1514,
      xmitBatchLen := 1,
      captBatchLen := 1,
      vlUntag := false,
      skbPoolSize := 1024,
      txAffinity := seq(maxCpu, _ => 0),
      txThreadNr := 0,
      txRateControlEager := true)
  }

  /** `pfq_global_init`: hands out the one default record. The record is
      well formed, captures incoming traffic only (so the packet handler is
      needed), starts no Tx thread and pins none: every affinity entry is
      CPU 0. */
  function GlobalInit(maxCpu: nat): (g: GlobalData)
    ensures WellFormed(g)
    ensures CapturesAnything(g) && g.captureIncoming && !g.captureOutgoing
    ensures g.txThreadNr == 0
    ensures |g.txAffinity| == maxCpu
    ensures forall i :: 0 <= i < |g.txAffinity| ==> g.txAffinity[i] == 0
    ensures g.captSlotSize == g.xmitSlotSize == 1514
    ensures g.captBatchLen == g.xmitBatchLen == 1
    ensures g.skbPoolSize == 1024 && !g.vlUntag && g.txRateControlEager
  {
    DefaultGlobal(maxCpu)
  }
}

=== FILE: pfq.dfy ===
/** The module-level logic of kernel/pf_q.c: the load-time option and
    affinity checks, the order in which `pfq_init_module` sets subsystems up
    and tears them down again, the capture decision of the packet handler,
    the handler's registration, and the argument checks of socket creation.

    Kernel services are parameters: what each fallible initialisation call
    returns, whether a socket could be allocated, and so on. What the
    module does to the kernel is recorded as a trace of steps. */
module Pfq {

  import opened Global
  import opened Errno

  // Socket constants used by the code.
  const SOCK_RAW := 3
  const ETH_P_ALL := 3

  /** `__constant_htons` on a little-endian host: the two bytes of a 16-bit
      value swapped. */
  function Htons(x: nat): nat
    requires x < 0x1_0000
  {
    (x % 0x100) * 0x100 + x / 0x100
  }

  // -----------------------------------------------------------------------
  // Tx thread affinity

  /** The first `n` affinity entries lie in `[0, onlineCpus)`, where
      `onlineCpus` is what `num_online_cpus()` returns. Whether those CPU ids
      are online is not asked. */
  predicate AffinityInRange(affinity: seq<int>, n: int, onlineCpus: nat)
    requires n <= |affinity|
  {
    forall i :: 0 <= i < n ==> 0 <= affinity[i] < onlineCpus
  }

  /** No two of the first `n` Tx threads share a CPU. */
  predicate AffinityDistinct(affinity: seq<int>, n: int)
    requires n <= |affinity|
  {
    forall i, j :: 0 <= i < j < n ==> affinity[i] != affinity[j]
  }

  predicate AffinityValid(affinity: seq<int>, n: int, onlineCpus: nat)
    requires n <= |affinity|
  {
    AffinityInRange(affinity, n, onlineCpus) && AffinityDistinct(affinity, n)
  }

  /** Which message `check_tx_threads_affinity` prints: none, a bad CPU at an
      index, or the earlier index of a pair of entries naming the same CPU. */
  datatype AffinityReport = AffinityOk | BadCpu(index: nat) | CpuInUse(index: nat)

  /** `check_tx_threads_affinity`, for `n` Tx threads on `onlineCpus` CPUs.
      Every entry is range-checked before any pair is compared, so a bad CPU
      is reported even when there are also duplicates. */
  method CheckTxThreadsAffinity(affinity: seq<int>, n: int, onlineCpus: nat)
    returns (err: int, report: AffinityReport)
    requires n <= |affinity|
    ensures err == 0 <==> AffinityValid(affinity, n, onlineCpus)
    ensures err != 0 ==> err == -EFAULT
    ensures report.AffinityOk? <==> err == 0
    ensures report.BadCpu? <==> !AffinityInRange(affinity, n, onlineCpus)
    ensures report.BadCpu? ==>
              && report.index < n
              && !(0 <= affinity[report.index] < onlineCpus)
              && AffinityInRange(affinity, report.index, onlineCpus)
    ensures report.CpuInUse? ==>
              && report.index < n
              && (exists j :: report.index < j < n && affinity[j] == affinity[report.index])
              && forall i, j :: 0 <= i < report.index && i < j < n ==> affinity[i] != affinity[j]
  {
    var i := 0;
    while i < n
      invariant 0 <= i && (i == 0 || i <= n)
      invariant AffinityInRange(affinity, i, onlineCpus)
    {
      if affinity[i] < 0 || affinity[i] >= onlineCpus {
        return -EFAULT, BadCpu(i);
      }
      i := i + 1;
    }
    i := 0;
    while i < n - 1
      invariant 0 <= i && (i == 0 || i <= n - 1)
      invariant forall p, q :: 0 <= p < i && p < q < n ==> affinity[p] != affinity[q]
    {
      var j := i + 1;
      while j < n
        invariant i + 1 <= j <= n
        invariant forall q :: i < q < j ==> affinity[i] != affinity[q]
      {
        if affinity[i] == affinity[j] {
          return -EFAULT, CpuInUse(i);
        }
        j := j + 1;
      }
      i := i + 1;
    }
    return 0, AffinityOk;
  }

  // -----------------------------------------------------------------------
  // Module load and unload

  /** Compile-time bounds and machine facts the load path consults:
      `Q_SKBUFF_BATCH`, `Q_MAX_POOL_SIZE` and `num_online_cpus()`. Their
      values are not part of this model. */
  datatype Limits = Limits(skbuffBatch: int, maxPoolSize: int, onlineCpus: nat)

  /** The three option checks at the top of `pfq_init_module`. */
  predicate OptionsValid(g: GlobalData, lim: Limits)
  {
    && 0 < g.captBatchLen <= lim.skbuffBatch
    && 0 < g.xmitBatchLen <= lim.skbuffBatch * 4
    && g.skbPoolSize <= lim.maxPoolSize
  }

  /** The subsystems the module sets up, in load order. */
  datatype Subsystem =
    | Groups | PercpuAlloc | PercpuInit | Proc | Proto | Sock | SkbPool
    | SymTable | DeviceHandler | NetdevNotifier | TxThreads

  /** `Setup(s, ok)`: the set-up call for `s` was made and succeeded or not.
      `Release(s)`: the matching tear-down call was made. */
  datatype Step = Setup(sub: Subsystem, ok: bool) | Release(sub: Subsystem)

  /** What the fallible set-up calls return, and whether the module is built
      with `PFQ_USE_SKB_POOL`. */
  datatype LoadEnv = LoadEnv(
    groupsInit: int, percpuAlloc: int, percpuInit: int, procInit: int,
    protoRegister: int, sockRegister: int, useSkbPool: bool, skbPoolInit: int,
    startTxThreads: int)

  datatype LoadResult = LoadResult(ret: int, trace: seq<Step>)

  /** The error labels of `pfq_init_module`, innermost first. */
  datatype Label = Err7 | Err6 | Err5 | Err4 | Err3 | Err2 | Err1 | Err

  /** How many labels lie below `at`. */
  function Depth(at: Label): nat
  {
    match at
    case Err7 => 7
    case Err6 => 6
    case Err5 => 5
    case Err4 => 4
    case Err3 => 3
    case Err2 => 2
    case Err1 => 1
    case Err => 0
  }

  /** `pfq_register_device_handler`: the packet hook is added only when
      some direction is captured. */
  function RegisterDeviceHandler(g: GlobalData): seq<Step>
  {
    if CapturesAnything(g) then [Setup(DeviceHandler, true)] else []
  }

  /** `unregister_device_handler`: the hook is removed under the same
      condition it was added. */
  function UnregisterDeviceHandler(g: GlobalData): seq<Step>
  {
    if CapturesAnything(g) then [Release(DeviceHandler)] else []
  }

  /** The tear-down run by jumping to `at`, falling through the labels
      below it. `corrected` adds, at `err6`, the release of the two
      subsystems set up between `err5` and `err6` that the code as written
      never releases: the pfq-lang symbol table and the skb pools. */
  function Unwind(at: Label, g: GlobalData, useSkbPool: bool, corrected: bool): seq<Step>
    decreases Depth(at)
  {
    match at
    case Err7 => [Release(TxThreads)] + Unwind(Err6, g, useSkbPool, corrected)
    case Err6 =>
      [Release(NetdevNotifier)] + UnregisterDeviceHandler(g)
      + (if corrected then [Release(SymTable)] + (if useSkbPool then [Release(SkbPool)] else []) else [])
      + Unwind(Err5, g, useSkbPool, corrected)
    case Err5 => [Release(Sock)] + Unwind(Err4, g, useSkbPool, corrected)
    case Err4 => [Release(Proto)] + Unwind(Err3, g, useSkbPool, corrected)
    case Err3 => [Release(Proc)] + Unwind(Err2, g, useSkbPool, corrected)
    case Err2 => [Release(PercpuInit)] + Unwind(Err1, g, useSkbPool, corrected)
    case Err1 => [Release(PercpuAlloc)] + Unwind(Err, g, useSkbPool, corrected)
    case Err => []
  }

  /** `goto at` with error `err`, ending in `return err < 0 ? err : -EFAULT`. */
  function Fail(err: int, trace: seq<Step>, at: Label, g: GlobalData, useSkbPool: bool, corrected: bool): LoadResult
  {
    LoadResult(if err < 0 then err else -EFAULT, trace + Unwind(at, g, useSkbPool, corrected))
  }

  /** A fallible set-up call of `pfq_init_module`: the subsystem it sets
      up, what it returns, and the label it jumps to when that is
      negative. */
  datatype Call = Call(sub: Subsystem, ret: int, onError: Label)

  /** The calls from `pfq_groups_init` to `sock_register`, in order, each
      with the label of its `goto`. */
  function CoreCalls(env: LoadEnv): seq<Call>
  {
    [ Call(Groups, env.groupsInit, Err), Call(PercpuAlloc, env.percpuAlloc, Err),
      Call(PercpuInit, env.percpuInit, Err1), Call(Proc, env.procInit, Err2),
      Call(Proto, env.protoRegister, Err3), Call(Sock, env.sockRegister, Err4) ]
  }

  /** Either the load goes on after `trace`, or it has returned. */
  datatype Progress = Continue(trace: seq<Step>) | Stopped(result: LoadResult)

  /** Makes `calls` in order after `trace`; the first that fails jumps to
      its label. */
  function RunCalls(calls: seq<Call>, trace: seq<Step>, g: GlobalData, useSkbPool: bool, corrected: bool): Progress
  {
    if calls == [] then Continue(trace)
    else
      var c := calls[0];
      var t := trace + [Setup(c.sub, c.ret >= 0)];
      if c.ret < 0 then Stopped(Fail(c.ret, t, c.onError, g, useSkbPool, corrected))
      else RunCalls(calls[1..], t, g, useSkbPool, corrected)
  }

  /** `pfq_init_module`, with the error paths as written (`corrected` false)
      or with the symbol table and skb pools also released at `err6`. The
      final check that every device index is below `Q_MAX_DEVICE` (a
      `BUG_ON`) is not part of this model. */
  function Load(g: GlobalData, lim: Limits, env: LoadEnv, corrected: bool): LoadResult
    requires AffinityReadable(g, lim, env)
  {
    if !OptionsValid(g, lim) then LoadResult(-EFAULT, [])
    else match RunCalls(CoreCalls(env), [], g, env.useSkbPool, corrected)
      case Stopped(r) => r
      case Continue(t) =>
        RunCallsContinue(CoreCalls(env), [], g, env.useSkbPool, corrected);
        CoreSetupOkAllOk(env);
        LoadServices(g, lim, env, corrected, t)
  }

  /** The load reaches its Tx-thread section: the options are valid and
      every set-up call before it succeeds. */
  predicate ReachesTxSection(g: GlobalData, lim: Limits, env: LoadEnv)
  {
    OptionsValid(g, lim) && CoreSetupOk(env) && (env.useSkbPool ==> env.skbPoolInit >= 0)
  }

  /** `tx_affinity` has an entry for every Tx thread whenever the load
      reads it, which only its Tx-thread section does. */
  predicate AffinityReadable(g: GlobalData, lim: Limits, env: LoadEnv)
  {
    ReachesTxSection(g, lim, env) ==> g.txThreadNr <= |g.txAffinity|
  }

  /** The second half of `pfq_init_module`, after the socket family is
      registered (`trace`): skb pools, symbol table, packet handler, device
      notifier, then the Tx threads. */
  function LoadServices(g: GlobalData, lim: Limits, env: LoadEnv, corrected: bool, trace: seq<Step>): LoadResult
    requires (env.useSkbPool ==> env.skbPoolInit >= 0) ==> g.txThreadNr <= |g.txAffinity|
  {
    var pool := env.useSkbPool;
    var t7 := trace + (if pool then [Setup(SkbPool, env.skbPoolInit >= 0)] else []);
    if pool && env.skbPoolInit < 0 then Fail(env.skbPoolInit, t7 + [Release(SkbPool)], Err5, g, pool, corrected)
    else
      var t8 := t7 + [Setup(SymTable, true)] + RegisterDeviceHandler(g) + [Setup(NetdevNotifier, true)];
      StartTxThreads(g, lim, env, corrected, t8)
  }

  /** The Tx-thread section of `pfq_init_module`, after `trace`: skipped
      when no Tx thread is configured, else the affinity is checked and the
      threads are started. */
  function StartTxThreads(g: GlobalData, lim: Limits, env: LoadEnv, corrected: bool, trace: seq<Step>): LoadResult
    requires g.txThreadNr <= |g.txAffinity|
  {
    var pool := env.useSkbPool;
    if g.txThreadNr == 0 then LoadResult(0, trace)
    else if !AffinityValid(g.txAffinity, g.txThreadNr, lim.onlineCpus) then Fail(-EFAULT, trace, Err6, g, pool, corrected)
    else
      var t9 := trace + [Setup(TxThreads, env.startTxThreads >= 0)];
      if env.startTxThreads < 0 then Fail(env.startTxThreads, t9, Err7, g, pool, corrected)
      else LoadResult(0, t9)
  }

  /** `pfq_init_module` as written. */
  function InitModule(g: GlobalData, lim: Limits, env: LoadEnv): (r: LoadResult)
    requires AffinityReadable(g, lim, env)
    ensures r.ret <= 0
    ensures r.ret == 0 <==> LoadSucceeds(g, lim, env)
  {
    LoadResultCode(g, lim, env, false);
    Load(g, lim, env, false)
  }

  /** `pfq_init_module` with its `err6` path also releasing the symbol table
      and the skb pools. */
  function InitModuleCorrected(g: GlobalData, lim: Limits, env: LoadEnv): (r: LoadResult)
    requires AffinityReadable(g, lim, env)
    ensures r.ret <= 0
    ensures r.ret == 0 <==> LoadSucceeds(g, lim, env)
  {
    LoadResultCode(g, lim, env, true);
    Load(g, lim, env, true)
  }

  /** `pfq_exit_module`: Tx threads are stopped whether or not any were
      started. */
  function ExitModule(g: GlobalData, useSkbPool: bool): seq<Step>
  {
    [Release(TxThreads), Release(NetdevNotifier)] + UnregisterDeviceHandler(g)
    + [Release(Sock), Release(Proto), Release(PercpuInit)]
    + (if useSkbPool then [Release(SkbPool)] else [])
    + [Release(PercpuAlloc), Release(SymTable), Release(Proc), Release(Groups)]
  }

  /** Subsystem `s` was set up successfully and never torn down in `trace`
      (each subsystem is set up at most once). */
  predicate Holds(trace: seq<Step>, s: Subsystem)
  {
    Setup(s, true) in trace && Release(s) !in trace
  }

  /** The calls that succeeded when `pfq_init_module` returned 0. */
  predicate LoadSucceeds(g: GlobalData, lim: Limits, env: LoadEnv)
    requires AffinityReadable(g, lim, env)
  {
    && OptionsValid(g, lim)
    && CoreSetupOk(env)
    && (env.useSkbPool ==> env.skbPoolInit >= 0)
    && (g.txThreadNr != 0 ==>
          AffinityValid(g.txAffinity, g.txThreadNr, lim.onlineCpus) && env.startTxThreads >= 0)
  }

  /** What a successful load leaves set up. */
  function LoadedSubsystems(g: GlobalData, useSkbPool: bool): set<Subsystem>
  {
    {Groups, PercpuAlloc, PercpuInit, Proc, Proto, Sock, SymTable, NetdevNotifier}
    + (if useSkbPool then {SkbPool} else {})
    + (if CapturesAnything(g) then {DeviceHandler} else {})
    + (if g.txThreadNr != 0 then {TxThreads} else {})
  }

  /** The subsystems the tear-down from `at` releases. */
  function Released(at: Label, g: GlobalData, useSkbPool: bool, corrected: bool): set<Subsystem>
    decreases Depth(at)
  {
    match at
    case Err7 => {TxThreads} + Released(Err6, g, useSkbPool, corrected)
    case Err6 =>
      {NetdevNotifier} + (if CapturesAnything(g) then {DeviceHandler} else {})
      + (if corrected then {SymTable} + (if useSkbPool then {SkbPool} else {}) else {})
      + Released(Err5, g, useSkbPool, corrected)
    case Err5 => {Sock} + Released(Err4, g, useSkbPool, corrected)
    case Err4 => {Proto} + Released(Err3, g, useSkbPool, corrected)
    case Err3 => {Proc} + Released(Err2, g, useSkbPool, corrected)
    case Err2 => {PercpuInit} + Released(Err1, g, useSkbPool, corrected)
    case Err1 => {PercpuAlloc} + Released(Err, g, useSkbPool, corrected)
    case Err => {}
  }

  /** The `err5` tear-down undoes the socket, protocol, proc and per-CPU
      set-up, and nothing else. */
  lemma ReleasedAtErr5(g: GlobalData, useSkbPool: bool, corrected: bool)
    ensures Released(Err5, g, useSkbPool, corrected) == {Sock, Proto, Proc, PercpuInit, PercpuAlloc}
  {
  }

  /** As written, no tear-down releases the symbol table or the skb pools. */
  lemma {:induction false} NeverReleasedAsWritten(at: Label, g: GlobalData, useSkbPool: bool)
    ensures SymTable !in Released(at, g, useSkbPool, false)
    ensures SkbPool !in Released(at, g, useSkbPool, false)
    decreases Depth(at)
  {
    match at
    case Err7 => NeverReleasedAsWritten(Err6, g, useSkbPool);
    case Err6 => NeverReleasedAsWritten(Err5, g, useSkbPool);
    case Err5 => NeverReleasedAsWritten(Err4, g, useSkbPool);
    case Err4 => NeverReleasedAsWritten(Err3, g, useSkbPool);
    case Err3 => NeverReleasedAsWritten(Err2, g, useSkbPool);
    case Err2 => NeverReleasedAsWritten(Err1, g, useSkbPool);
    case Err1 => NeverReleasedAsWritten(Err, g, useSkbPool);
    case Err =>
  }

  /** A tear-down only releases, and releases exactly `Released`. */
  lemma UnwindSteps(at: Label, g: GlobalData, useSkbPool: bool, corrected: bool)
    ensures forall st :: st in Unwind(at, g, useSkbPool, corrected) ==> st.Release?
    ensures forall s :: Release(s) in Unwind(at, g, useSkbPool, corrected) <==>
                        s in Released(at, g, useSkbPool, corrected)
  {
    UnwindOnlyReleases(at, g, useSkbPool, corrected);
    UnwindReleases(at, g, useSkbPool, corrected);
  }

  lemma {:induction false} UnwindOnlyReleases(at: Label, g: GlobalData, useSkbPool: bool, corrected: bool)
    ensures forall st :: st in Unwind(at, g, useSkbPool, corrected) ==> st.Release?
    decreases Depth(at)
  {
    match at
    case Err7 => UnwindOnlyReleases(Err6, g, useSkbPool, corrected);
    case Err6 => UnwindOnlyReleases(Err5, g, useSkbPool, corrected);
    case Err5 => UnwindOnlyReleases(Err4, g, useSkbPool, corrected);
    case Err4 => UnwindOnlyReleases(Err3, g, useSkbPool, corrected);
    case Err3 => UnwindOnlyReleases(Err2, g, useSkbPool, corrected);
    case Err2 => UnwindOnlyReleases(Err1, g, useSkbPool, corrected);
    case Err1 => UnwindOnlyReleases(Err, g, useSkbPool, corrected);
    case Err =>
  }

  lemma UnwindReleases(at: Label, g: GlobalData, useSkbPool: bool, corrected: bool)
    ensures forall s :: Release(s) in Unwind(at, g, useSkbPool, corrected) <==>
                        s in Released(at, g, useSkbPool, corrected)
  {
    forall s ensures Release(s) in Unwind(at, g, useSkbPool, corrected) <==> s in Released(at, g, useSkbPool, corrected) {
      UnwindReleasesOne(at, g, useSkbPool, corrected, s);
    }
  }

  /** `UnwindReleases` for one subsystem, by induction over the labels. */
  lemma {:induction false} UnwindReleasesOne(at: Label, g: GlobalData, useSkbPool: bool, corrected: bool, s: Subsystem)
    ensures Release(s) in Unwind(at, g, useSkbPool, corrected) <==> s in Released(at, g, useSkbPool, corrected)
    decreases Depth(at)
  {
    match at
    case Err7 => UnwindReleasesOne(Err6, g, useSkbPool, corrected, s);
    case Err5 => UnwindReleasesOne(Err4, g, useSkbPool, corrected, s);
    case Err4 => UnwindReleasesOne(Err3, g, useSkbPool, corrected, s);
    case Err3 => UnwindReleasesOne(Err2, g, useSkbPool, corrected, s);
    case Err2 => UnwindReleasesOne(Err1, g, useSkbPool, corrected, s);
    case Err1 => UnwindReleasesOne(Err, g, useSkbPool, corrected, s);
    case Err6 =>
      UnwindReleasesOne(Err5, g, useSkbPool, corrected, s);
      UnwindErr6(g, useSkbPool, corrected, s);
    case Err =>
  }

  /** The `err6` step of `UnwindReleasesOne`: what `err6` itself releases
      matches its part of `Released`. */
  lemma UnwindErr6(g: GlobalData, useSkbPool: bool, corrected: bool, s: Subsystem)
    requires Release(s) in Unwind(Err5, g, useSkbPool, corrected) <==> s in Released(Err5, g, useSkbPool, corrected)
    ensures Release(s) in Unwind(Err6, g, useSkbPool, corrected) <==> s in Released(Err6, g, useSkbPool, corrected)
  {
    var fixes := if corrected then [Release(SymTable)] + (if useSkbPool then [Release(SkbPool)] else []) else [];
    var head := [Release(NetdevNotifier)] + UnregisterDeviceHandler(g) + fixes;
    assert Unwind(Err6, g, useSkbPool, corrected) == head + Unwind(Err5, g, useSkbPool, corrected);
  }

  /** What a failed load still holds: what its prefix set up, minus what
      the tear-down releases. */
  lemma FailHolds(err: int, trace: seq<Step>, at: Label, g: GlobalData, useSkbPool: bool, corrected: bool)
    ensures Fail(err, trace, at, g, useSkbPool, corrected).ret < 0
    ensures forall s :: Holds(Fail(err, trace, at, g, useSkbPool, corrected).trace, s) <==>
                        Holds(trace, s) && s !in Released(at, g, useSkbPool, corrected)
  {
    UnwindSteps(at, g, useSkbPool, corrected);
  }

  /** The successful set-up steps of `calls`. */
  function Setups(calls: seq<Call>): seq<Step>
  {
    seq(|calls|, k requires 0 <= k < |calls| => Setup(calls[k].sub, true))
  }

  /** The subsystems `calls` set up. */
  function Subs(calls: seq<Call>): set<Subsystem>
  {
    set c | c in calls :: c.sub
  }

  predicate AllOk(calls: seq<Call>)
  {
    forall k :: 0 <= k < |calls| ==> calls[k].ret >= 0
  }

  /** The load goes on after `calls` only when every one of them succeeds. */
  lemma {:induction false} RunCallsContinue(calls: seq<Call>, trace: seq<Step>, g: GlobalData, useSkbPool: bool, corrected: bool)
    ensures RunCalls(calls, trace, g, useSkbPool, corrected).Continue? ==> AllOk(calls)
  {
    if calls != [] && calls[0].ret >= 0 {
      RunCallsContinue(calls[1..], trace + [Setup(calls[0].sub, true)], g, useSkbPool, corrected);
      if RunCalls(calls, trace, g, useSkbPool, corrected).Continue? {
        forall k | 0 <= k < |calls| ensures calls[k].ret >= 0 {
          if k > 0 {
            assert calls[k] == calls[1..][k - 1];
          }
        }
      }
    }
  }

  /** When every call succeeds, the load goes on after their set-up steps. */
  lemma {:induction false} RunCallsOk(calls: seq<Call>, trace: seq<Step>, g: GlobalData, useSkbPool: bool, corrected: bool)
    requires AllOk(calls)
    ensures RunCalls(calls, trace, g, useSkbPool, corrected) == Continue(trace + Setups(calls))
  {
    if calls != [] {
      var t := trace + [Setup(calls[0].sub, true)];
      assert AllOk(calls[1..]) by {
        forall k | 0 <= k < |calls[1..]| ensures calls[1..][k].ret >= 0 {
          assert calls[1..][k] == calls[k + 1];
        }
      }
      RunCallsOk(calls[1..], t, g, useSkbPool, corrected);
      assert Setups(calls) == [Setup(calls[0].sub, true)] + Setups(calls[1..]);
    }
  }

  /** When call `k` is the first to fail, the load jumps to its label after
      the set-up steps of the calls before it and the failed call. */
  lemma {:induction false} RunCallsFail(calls: seq<Call>, trace: seq<Step>, g: GlobalData, useSkbPool: bool, corrected: bool, k: nat)
    requires k < |calls| && calls[k].ret < 0 && AllOk(calls[..k])
    ensures RunCalls(calls, trace, g, useSkbPool, corrected) ==
            Stopped(Fail(calls[k].ret, trace + Setups(calls[..k]) + [Setup(calls[k].sub, false)],
                         calls[k].onError, g, useSkbPool, corrected))
  {
    if k == 0 {
      assert Setups(calls[..0]) == [];
    } else {
      var t := trace + [Setup(calls[0].sub, true)];
      assert calls[..k][0] == calls[0];
      assert calls[1..][k - 1] == calls[k];
      PrefixTail(calls, k);
      RunCallsFail(calls[1..], t, g, useSkbPool, corrected, k - 1);
      assert t + Setups(calls[1..][..k - 1]) == trace + Setups(calls[..k]);
    }
  }

  /** Dropping the first of `k` calls that all succeed. */
  lemma PrefixTail(calls: seq<Call>, k: nat)
    requires 0 < k <= |calls| && AllOk(calls[..k])
    ensures AllOk(calls[1..][..k - 1])
    ensures Setups(calls[..k]) == [Setup(calls[0].sub, true)] + Setups(calls[1..][..k - 1])
  {
    var pre, done := calls[1..][..k - 1], calls[..k];
    forall j | 0 <= j < |pre| ensures pre[j] == done[j + 1] && pre[j].ret >= 0 {
      assert pre[j] == calls[j + 1];
    }
  }

  /** The set-up steps of `calls` hold exactly the subsystems they name,
      also when followed by a failed set-up. */
  lemma SetupsHold(calls: seq<Call>, failed: Subsystem)
    ensures forall st :: st in Setups(calls) ==> st.Setup? && st.ok
    ensures forall s :: Holds(Setups(calls), s) <==> s in Subs(calls)
    ensures forall s :: Holds(Setups(calls) + [Setup(failed, false)], s) <==> s in Subs(calls)
  {
    var t := Setups(calls);
    forall s ensures Setup(s, true) in t <==> s in Subs(calls) {
      if s in Subs(calls) {
        var k :| 0 <= k < |calls| && calls[k].sub == s;
        assert t[k] == Setup(s, true);
      }
    }
  }

  /** The steps of `pfq_groups_init` to `sock_register` when all succeed. */
  function CoreTrace(): seq<Step>
  {
    [Setup(Groups, true), Setup(PercpuAlloc, true), Setup(PercpuInit, true),
     Setup(Proc, true), Setup(Proto, true), Setup(Sock, true)]
  }

  lemma CoreSetups(env: LoadEnv)
    ensures Setups(CoreCalls(env)) == CoreTrace()
  {
    assert |Setups(CoreCalls(env))| == |CoreTrace()|;
  }

  /** Each core call's label tears down exactly what the calls before it set
      up, except the group table: the `goto` ladder matches the set-up
      order. */
  lemma CoreLadder(env: LoadEnv, g: GlobalData, useSkbPool: bool, corrected: bool, k: nat)
    requires k < |CoreCalls(env)|
    ensures Released(CoreCalls(env)[k].onError, g, useSkbPool, corrected) == Subs(CoreCalls(env)[..k]) - {Groups}
  {
    var calls := CoreCalls(env);
    if k == 0 {
    } else if k == 1 {
      assert calls[..1] == [calls[0]];
    } else if k == 2 {
      assert calls[..2] == [calls[0], calls[1]];
    } else if k == 3 {
      assert calls[..3] == [calls[0], calls[1], calls[2]];
    } else if k == 4 {
      assert calls[..4] == [calls[0], calls[1], calls[2], calls[3]];
    } else {
      assert calls[..5] == [calls[0], calls[1], calls[2], calls[3], calls[4]];
    }
  }

  /** The steps of a load that succeeds. */
  function SuccessTrace(g: GlobalData, useSkbPool: bool): seq<Step>
  {
    CoreTrace()
    + (if useSkbPool then [Setup(SkbPool, true)] else [])
    + [Setup(SymTable, true)] + RegisterDeviceHandler(g) + [Setup(NetdevNotifier, true)]
    + (if g.txThreadNr != 0 then [Setup(TxThreads, true)] else [])
  }

  /** A load whose calls all succeed returns 0 after exactly the successful
      set-up steps, whichever way its error paths are written. */
  lemma LoadSuccessTrace(g: GlobalData, lim: Limits, env: LoadEnv, corrected: bool)
    requires AffinityReadable(g, lim, env)
    requires LoadSucceeds(g, lim, env)
    ensures Load(g, lim, env, corrected) == LoadResult(0, SuccessTrace(g, env.useSkbPool))
  {
    CoreLoaded(g, lim, env, corrected);
  }

  /** A successful load holds exactly the loaded subsystems. */
  lemma SuccessHolds(g: GlobalData, useSkbPool: bool)
    ensures forall s :: Holds(SuccessTrace(g, useSkbPool), s) <==> s in LoadedSubsystems(g, useSkbPool)
    ensures forall st :: st in SuccessTrace(g, useSkbPool) ==> st.Setup? && st.ok
  {
  }

  /** The set-up calls before the skb pools all succeeded. */
  predicate CoreSetupOk(env: LoadEnv)
  {
    && env.groupsInit >= 0 && env.percpuAlloc >= 0 && env.percpuInit >= 0
    && env.procInit >= 0 && env.protoRegister >= 0 && env.sockRegister >= 0
  }

  lemma CoreSetupOkAllOk(env: LoadEnv)
    ensures CoreSetupOk(env) <==> AllOk(CoreCalls(env))
  {
    var calls := CoreCalls(env);
    if AllOk(calls) {
      assert calls[0].ret >= 0 && calls[1].ret >= 0 && calls[2].ret >= 0;
      assert calls[3].ret >= 0 && calls[4].ret >= 0 && calls[5].ret >= 0;
    }
  }

  /** What a failed load may leave set up besides the group table: with the
      error paths as written, the symbol table and the skb pools. */
  function Leaked(useSkbPool: bool, corrected: bool): set<Subsystem>
  {
    if corrected then {} else {SymTable} + (if useSkbPool then {SkbPool} else {})
  }

  /** A failure in the Tx-thread section releases everything `err6`
      releases, and the threads themselves when they were started. */
  lemma {:induction false} StartTxFailure(g: GlobalData, lim: Limits, env: LoadEnv, corrected: bool, trace: seq<Step>)
    requires g.txThreadNr <= |g.txAffinity|
    requires g.txThreadNr != 0
    requires !AffinityValid(g.txAffinity, g.txThreadNr, lim.onlineCpus) || env.startTxThreads < 0
    ensures StartTxThreads(g, lim, env, corrected, trace).ret < 0
    ensures forall s :: Holds(StartTxThreads(g, lim, env, corrected, trace).trace, s) ==>
                        Holds(trace, s) && s !in Released(Err6, g, env.useSkbPool, corrected)
  {
    var pool := env.useSkbPool;
    if !AffinityValid(g.txAffinity, g.txThreadNr, lim.onlineCpus) {
      FailHolds(-EFAULT, trace, Err6, g, pool, corrected);
    } else {
      var t9 := trace + [Setup(TxThreads, false)];
      FailHolds(env.startTxThreads, t9, Err7, g, pool, corrected);
      forall s | Holds(t9, s) && s != TxThreads ensures Holds(trace, s) {
        assert Setup(s, true) in t9;
      }
    }
  }

  /** A failure after the socket family is registered leaves at most what
      `trace` held minus the `err5` tear-down, plus what is leaked. */
  lemma {:induction false} ServicesFailure(g: GlobalData, lim: Limits, env: LoadEnv, corrected: bool, trace: seq<Step>)
    requires (env.useSkbPool ==> env.skbPoolInit >= 0) ==> g.txThreadNr <= |g.txAffinity|
    requires || (env.useSkbPool && env.skbPoolInit < 0)
             || (&& g.txThreadNr != 0
                 && (!AffinityValid(g.txAffinity, g.txThreadNr, lim.onlineCpus) || env.startTxThreads < 0))
    ensures LoadServices(g, lim, env, corrected, trace).ret < 0
    ensures forall s :: Holds(LoadServices(g, lim, env, corrected, trace).trace, s) ==>
                        || (Holds(trace, s) && s !in Released(Err5, g, env.useSkbPool, corrected))
                        || s in Leaked(env.useSkbPool, corrected)
  {
    var pool := env.useSkbPool;
    var t7 := trace + (if pool then [Setup(SkbPool, env.skbPoolInit >= 0)] else []);
    if pool && env.skbPoolInit < 0 {
      FailHolds(env.skbPoolInit, t7 + [Release(SkbPool)], Err5, g, pool, corrected);
      forall s | Holds(t7 + [Release(SkbPool)], s) ensures Holds(trace, s) {
        assert Setup(s, true) in t7;
      }
    } else {
      var t8 := t7 + [Setup(SymTable, true)] + RegisterDeviceHandler(g) + [Setup(NetdevNotifier, true)];
      StartTxFailure(g, lim, env, corrected, t8);
      forall s | Holds(t8, s) && s !in Released(Err6, g, pool, corrected)
        ensures || (Holds(trace, s) && s !in Released(Err5, g, pool, corrected))
                || s in Leaked(pool, corrected)
      {
        assert Setup(s, true) in t8;
      }
    }
  }

  /** A failed load returns a negative error and leaves set up at most the
      group table and what is leaked. */
  lemma {:induction false} LoadFailure(g: GlobalData, lim: Limits, env: LoadEnv, corrected: bool)
    requires AffinityReadable(g, lim, env)
    requires !LoadSucceeds(g, lim, env)
    ensures Load(g, lim, env, corrected).ret < 0
    ensures forall s :: Holds(Load(g, lim, env, corrected).trace, s) ==>
                        s == Groups || s in Leaked(env.useSkbPool, corrected)
  {
    var pool := env.useSkbPool;
    if !OptionsValid(g, lim) {
    } else if !CoreSetupOk(env) {
      CoreFailure(g, lim, env, corrected);
    } else {
      var t6 := CoreTrace();
      CoreLoaded(g, lim, env, corrected);
      ReleasedAtErr5(g, pool, corrected);
      ServicesFailure(g, lim, env, corrected, t6);
      forall s | Holds(t6, s) && s !in Released(Err5, g, pool, corrected) ensures s == Groups {
        assert Setup(s, true) in t6;
      }
    }
  }

  /** A failure before the socket family is registered leaves at most the
      group table set up. */
  lemma {:induction false} CoreFailure(g: GlobalData, lim: Limits, env: LoadEnv, corrected: bool)
    requires OptionsValid(g, lim) && !CoreSetupOk(env)
    ensures Load(g, lim, env, corrected).ret < 0
    ensures forall s :: Holds(Load(g, lim, env, corrected).trace, s) ==> s == Groups
  {
    var pool := env.useSkbPool;
    var calls := CoreCalls(env);
    var k: nat :=
      if env.groupsInit < 0 then 0 else if env.percpuAlloc < 0 then 1
      else if env.percpuInit < 0 then 2 else if env.procInit < 0 then 3
      else if env.protoRegister < 0 then 4 else 5;
    assert AllOk(calls[..k]) by {
      forall j | 0 <= j < k ensures calls[..k][j].ret >= 0 {
        assert calls[..k][j] == calls[j];
      }
    }
    RunCallsFail(calls, [], g, pool, corrected, k);
    var prefix := Setups(calls[..k]) + [Setup(calls[k].sub, false)];
    assert [] + Setups(calls[..k]) == Setups(calls[..k]);
    FailHolds(calls[k].ret, prefix, calls[k].onError, g, pool, corrected);
    SetupsHold(calls[..k], calls[k].sub);
    CoreLadder(env, g, pool, corrected, k);
  }

  /** When the calls up to `sock_register` succeed, the load goes on with
      the rest of the set-up after their steps. */
  lemma CoreLoaded(g: GlobalData, lim: Limits, env: LoadEnv, corrected: bool)
    requires AffinityReadable(g, lim, env)
    requires OptionsValid(g, lim) && CoreSetupOk(env)
    ensures Load(g, lim, env, corrected) == LoadServices(g, lim, env, corrected, CoreTrace())
  {
    CoreSetupOkAllOk(env);
    RunCallsOk(CoreCalls(env), [], g, env.useSkbPool, corrected);
    CoreSetups(env);
    assert [] + CoreTrace() == CoreTrace();
  }

  /** `pfq_init_module` returns 0 exactly when every check and every
      set-up call succeeds, a negative error otherwise, and rejects bad
      options before setting anything up. */
  lemma LoadResultCode(g: GlobalData, lim: Limits, env: LoadEnv, corrected: bool)
    requires AffinityReadable(g, lim, env)
    ensures Load(g, lim, env, corrected).ret <= 0
    ensures Load(g, lim, env, corrected).ret == 0 <==> LoadSucceeds(g, lim, env)
    ensures !OptionsValid(g, lim) ==> Load(g, lim, env, corrected) == LoadResult(-EFAULT, [])
  {
    if LoadSucceeds(g, lim, env) {
      LoadSuccessTrace(g, lim, env, corrected);
    } else {
      LoadFailure(g, lim, env, corrected);
    }
  }

  /** `pfq_init_module` as written: a failed load leaves the group table,
      the symbol table and the skb pools behind at most; a successful one
      holds exactly what it set up. */
  lemma LoadTeardown(g: GlobalData, lim: Limits, env: LoadEnv)
    requires AffinityReadable(g, lim, env)
    ensures InitModule(g, lim, env).ret != 0 ==>
              forall s :: Holds(InitModule(g, lim, env).trace, s) ==>
                          s in {Groups, SymTable} + (if env.useSkbPool then {SkbPool} else {})
    ensures InitModule(g, lim, env).ret == 0 ==>
              forall s :: Holds(InitModule(g, lim, env).trace, s) <==> s in LoadedSubsystems(g, env.useSkbPool)
  {
    if LoadSucceeds(g, lim, env) {
      LoadSuccessTrace(g, lim, env, false);
      SuccessHolds(g, env.useSkbPool);
    } else {
      LoadFailure(g, lim, env, false);
    }
  }

  /** With the error paths corrected, a failed load leaves nothing set up
      but the group table, and a successful one holds exactly what it set
      up. */
  lemma LoadTeardownCorrected(g: GlobalData, lim: Limits, env: LoadEnv)
    requires AffinityReadable(g, lim, env)
    ensures InitModuleCorrected(g, lim, env).ret != 0 ==>
              forall s :: Holds(InitModuleCorrected(g, lim, env).trace, s) ==> s == Groups
    ensures InitModuleCorrected(g, lim, env).ret == 0 ==>
              forall s :: Holds(InitModuleCorrected(g, lim, env).trace, s) <==>
                          s in LoadedSubsystems(g, env.useSkbPool)
  {
    if LoadSucceeds(g, lim, env) {
      LoadSuccessTrace(g, lim, env, true);
      SuccessHolds(g, env.useSkbPool);
    } else {
      LoadFailure(g, lim, env, true);
    }
  }

  /** The code as written and the corrected code agree whenever the load
      succeeds. */
  lemma CorrectionOnlyAffectsFailures(g: GlobalData, lim: Limits, env: LoadEnv)
    requires AffinityReadable(g, lim, env)
    ensures InitModule(g, lim, env).ret == InitModuleCorrected(g, lim, env).ret
    ensures InitModule(g, lim, env).ret == 0 ==> InitModule(g, lim, env) == InitModuleCorrected(g, lim, env)
  {
    if LoadSucceeds(g, lim, env) {
      LoadSuccessTrace(g, lim, env, false);
      LoadSuccessTrace(g, lim, env, true);
    } else if OptionsValid(g, lim) {
      LoadResultCode(g, lim, env, false);
      var pool := env.useSkbPool;
      RunCallsRet(CoreCalls(env), [], g, pool);
      match RunCalls(CoreCalls(env), [], g, pool, false)
      case Stopped(_) =>
      case Continue(t) =>
        RunCallsContinue(CoreCalls(env), [], g, pool, false);
        CoreSetupOkAllOk(env);
        ServicesRet(g, lim, env, t);
    }
  }

  /** Making the same calls, the code as written and the corrected code
      stop at the same call with the same error, or both go on with the
      same trace. */
  lemma {:induction false} RunCallsRet(calls: seq<Call>, trace: seq<Step>, g: GlobalData, useSkbPool: bool)
    ensures RunCalls(calls, trace, g, useSkbPool, false).Stopped? == RunCalls(calls, trace, g, useSkbPool, true).Stopped?
    ensures RunCalls(calls, trace, g, useSkbPool, false).Stopped? ==>
              RunCalls(calls, trace, g, useSkbPool, false).result.ret == RunCalls(calls, trace, g, useSkbPool, true).result.ret
    ensures RunCalls(calls, trace, g, useSkbPool, false).Continue? ==>
              RunCalls(calls, trace, g, useSkbPool, false) == RunCalls(calls, trace, g, useSkbPool, true)
  {
    if calls != [] {
      RunCallsRet(calls[1..], trace + [Setup(calls[0].sub, calls[0].ret >= 0)], g, useSkbPool);
    }
  }

  /** After the socket family is registered, both versions return the same
      code. */
  lemma ServicesRet(g: GlobalData, lim: Limits, env: LoadEnv, trace: seq<Step>)
    requires (env.useSkbPool ==> env.skbPoolInit >= 0) ==> g.txThreadNr <= |g.txAffinity|
    ensures LoadServices(g, lim, env, false, trace).ret == LoadServices(g, lim, env, true, trace).ret
  {
  }

  /** A load that fails the affinity check after every set-up call
      succeeded returns -EFAULT with the symbol table, and the skb pools
      when built with them, still set up; the corrected code releases
      both. */
  lemma AffinityFailureLeaks(g: GlobalData, lim: Limits, env: LoadEnv)
    requires g.txThreadNr <= |g.txAffinity|
    requires OptionsValid(g, lim) && CoreSetupOk(env)
    requires env.useSkbPool ==> env.skbPoolInit >= 0
    requires g.txThreadNr != 0 && !AffinityValid(g.txAffinity, g.txThreadNr, lim.onlineCpus)
    ensures InitModule(g, lim, env).ret == -EFAULT
    ensures Holds(InitModule(g, lim, env).trace, SymTable)
    ensures env.useSkbPool ==> Holds(InitModule(g, lim, env).trace, SkbPool)
    ensures !Holds(InitModuleCorrected(g, lim, env).trace, SymTable)
    ensures !Holds(InitModuleCorrected(g, lim, env).trace, SkbPool)
  {
    var pool := env.useSkbPool;
    var t8 := ServicesTrace(g, pool);
    AffinityFailureTrace(g, lim, env, false);
    FailHolds(-EFAULT, t8, Err6, g, pool, false);
    NeverReleasedAsWritten(Err6, g, pool);
    assert Setup(SymTable, true) in t8;
    assert pool ==> Setup(SkbPool, true) in t8;
    LoadTeardownCorrected(g, lim, env);
    LoadResultCode(g, lim, env, true);
  }

  /** The steps up to the device notifier when every set-up call succeeds. */
  function ServicesTrace(g: GlobalData, useSkbPool: bool): seq<Step>
  {
    CoreTrace() + (if useSkbPool then [Setup(SkbPool, true)] else [])
    + [Setup(SymTable, true)] + RegisterDeviceHandler(g) + [Setup(NetdevNotifier, true)]
  }

  /** A load that fails the affinity check jumps to `err6` after the whole
      set-up up to the device notifier. */
  lemma AffinityFailureTrace(g: GlobalData, lim: Limits, env: LoadEnv, corrected: bool)
    requires g.txThreadNr <= |g.txAffinity|
    requires OptionsValid(g, lim) && CoreSetupOk(env)
    requires env.useSkbPool ==> env.skbPoolInit >= 0
    requires g.txThreadNr != 0 && !AffinityValid(g.txAffinity, g.txThreadNr, lim.onlineCpus)
    ensures Load(g, lim, env, corrected) == Fail(-EFAULT, ServicesTrace(g, env.useSkbPool), Err6, g, env.useSkbPool, corrected)
    ensures forall st :: st in ServicesTrace(g, env.useSkbPool) ==> st.Setup?
  {
    CoreLoaded(g, lim, env, corrected);
  }

  /** Two Tx threads pinned to the same CPU: the load fails and the symbol
      table stays allocated. */
  lemma DuplicateAffinityLeaksSymbolTable()
    ensures var g := DefaultGlobal(2).(txThreadNr := 2);
            var env := LoadEnv(0, 0, 0, 0, 0, 0, false, 0, 0);
            && InitModule(g, Limits(1, 1024, 2), env).ret == -EFAULT
            && Holds(InitModule(g, Limits(1, 1024, 2), env).trace, SymTable)
  {
    var g := DefaultGlobal(2).(txThreadNr := 2);
    var lim := Limits(1, 1024, 2);
    var env := LoadEnv(0, 0, 0, 0, 0, 0, false, 0, 0);
    assert g.txAffinity[0] == g.txAffinity[1];
    AffinityFailureLeaks(g, lim, env);
  }

  /** `pfq_exit_module` tears down every subsystem a successful load may
      have set up, and removes the packet hook exactly when it is there. */
  lemma ExitReleasesAll(g: GlobalData, useSkbPool: bool)
    ensures forall s :: s in LoadedSubsystems(g, useSkbPool) ==> Release(s) in ExitModule(g, useSkbPool)
    ensures Release(DeviceHandler) in ExitModule(g, useSkbPool) <==> CapturesAnything(g)
    ensures forall st :: st in ExitModule(g, useSkbPool) ==> st.Release?
  {
    ExitReleasesLoaded(g, useSkbPool);
    ExitHandlerAndKinds(g, useSkbPool);
  }

  /** The exit path in five pieces: the Tx threads and notifier, the packet
      hook, the socket family and per-CPU state, the skb pools, the rest. */
  function ExitPieces(g: GlobalData, useSkbPool: bool): seq<seq<Step>>
  {
    [ [Release(TxThreads), Release(NetdevNotifier)],
      UnregisterDeviceHandler(g),
      [Release(Sock), Release(Proto), Release(PercpuInit)],
      if useSkbPool then [Release(SkbPool)] else [],
      [Release(PercpuAlloc), Release(SymTable), Release(Proc), Release(Groups)] ]
  }

  lemma ExitReleasesLoaded(g: GlobalData, useSkbPool: bool)
    ensures forall s :: s in LoadedSubsystems(g, useSkbPool) ==> Release(s) in ExitModule(g, useSkbPool)
  {
    var e := ExitPieces(g, useSkbPool);
    var exit := e[0] + e[1] + e[2] + e[3] + e[4];
    assert ExitModule(g, useSkbPool) == exit;
    forall s | s in LoadedSubsystems(g, useSkbPool) ensures Release(s) in exit {
      match s
      case TxThreads => assert Release(s) in e[0];
      case NetdevNotifier => assert Release(s) in e[0];
      case DeviceHandler => assert Release(s) in e[1];
      case Sock => assert Release(s) in e[2];
      case Proto => assert Release(s) in e[2];
      case PercpuInit => assert Release(s) in e[2];
      case SkbPool => assert Release(s) in e[3];
      case PercpuAlloc => assert Release(s) in e[4];
      case SymTable => assert Release(s) in e[4];
      case Proc => assert Release(s) in e[4];
      case Groups => assert Release(s) in e[4];
    }
  }

  lemma ExitHandlerAndKinds(g: GlobalData, useSkbPool: bool)
    ensures Release(DeviceHandler) in ExitModule(g, useSkbPool) <==> CapturesAnything(g)
    ensures forall st :: st in ExitModule(g, useSkbPool) ==> st.Release?
  {
    var e := ExitPieces(g, useSkbPool);
    assert ExitModule(g, useSkbPool) == e[0] + e[1] + e[2] + e[3] + e[4];
  }

  /** Unloading after a successful load leaves nothing set up, and the
      packet hook is removed exactly when the load added it. */
  lemma LoadThenExit(g: GlobalData, lim: Limits, env: LoadEnv)
    requires AffinityReadable(g, lim, env)
    requires InitModule(g, lim, env).ret == 0
    ensures forall s :: !Holds(InitModule(g, lim, env).trace + ExitModule(g, env.useSkbPool), s)
    ensures Setup(DeviceHandler, true) in InitModule(g, lim, env).trace
            <==> Release(DeviceHandler) in ExitModule(g, env.useSkbPool)
  {
    var pool := env.useSkbPool;
    LoadResultCode(g, lim, env, false);
    LoadSuccessTrace(g, lim, env, false);
    var t := SuccessTrace(g, pool);
    SuccessHolds(g, pool);
    ExitReleasesAll(g, pool);
    var exit := ExitModule(g, pool);
    forall s ensures !Holds(t + exit, s) {
      if Setup(s, true) in t + exit {
        assert Setup(s, true) in t;
        assert Release(s) in exit;
      }
    }
    assert Holds(t, DeviceHandler) <==> Setup(DeviceHandler, true) in t;
  }

  /** Without Tx threads the affinity option is never read: the load does
      the same whatever it holds. */
  lemma AffinityIgnoredWithoutTxThreads(g: GlobalData, lim: Limits, env: LoadEnv, corrected: bool, affinity: seq<int>)
    requires g.txThreadNr == 0
    ensures Load(g, lim, env, corrected) == Load(g.(txAffinity := affinity), lim, env, corrected)
  {
    var g' := g.(txAffinity := affinity);
    var pool := env.useSkbPool;
    if OptionsValid(g, lim) {
      RunCallsReadsCaptureOnly(CoreCalls(env), [], g, g', pool, corrected);
      match RunCalls(CoreCalls(env), [], g, pool, corrected)
      case Stopped(_) =>
      case Continue(_) =>
        UnwindReadsCaptureOnly(Err5, g, g', pool, corrected);
    }
  }

  /** The tear-down reads the configuration only through the capture
      switches. */
  lemma {:induction false} UnwindReadsCaptureOnly(at: Label, g: GlobalData, g': GlobalData, useSkbPool: bool, corrected: bool)
    requires CapturesAnything(g) == CapturesAnything(g')
    ensures Unwind(at, g, useSkbPool, corrected) == Unwind(at, g', useSkbPool, corrected)
    decreases Depth(at)
  {
    match at
    case Err7 => UnwindReadsCaptureOnly(Err6, g, g', useSkbPool, corrected);
    case Err6 => UnwindReadsCaptureOnly(Err5, g, g', useSkbPool, corrected);
    case Err5 => UnwindReadsCaptureOnly(Err4, g, g', useSkbPool, corrected);
    case Err4 => UnwindReadsCaptureOnly(Err3, g, g', useSkbPool, corrected);
    case Err3 => UnwindReadsCaptureOnly(Err2, g, g', useSkbPool, corrected);
    case Err2 => UnwindReadsCaptureOnly(Err1, g, g', useSkbPool, corrected);
    case Err1 => UnwindReadsCaptureOnly(Err, g, g', useSkbPool, corrected);
    case Err =>
  }

  lemma {:induction false} RunCallsReadsCaptureOnly(calls: seq<Call>, trace: seq<Step>, g: GlobalData, g': GlobalData, useSkbPool: bool, corrected: bool)
    requires CapturesAnything(g) == CapturesAnything(g')
    ensures RunCalls(calls, trace, g, useSkbPool, corrected) == RunCalls(calls, trace, g', useSkbPool, corrected)
  {
    if calls != [] {
      var t := trace + [Setup(calls[0].sub, calls[0].ret >= 0)];
      UnwindReadsCaptureOnly(calls[0].onError, g, g', useSkbPool, corrected);
      RunCallsReadsCaptureOnly(calls[1..], t, g, g', useSkbPool, corrected);
    }
  }

  /** With the module's default options, a load whose set-up calls succeed
      returns 0, installs the packet hook (incoming traffic is captured by
      default) and starts no Tx thread. */
  lemma DefaultsLoad(maxCpu: nat, lim: Limits, env: LoadEnv)
    requires lim.skbuffBatch >= 1 && lim.maxPoolSize >= 1024
    requires CoreSetupOk(env) && (env.useSkbPool ==> env.skbPoolInit >= 0)
    ensures InitModule(GlobalInit(maxCpu), lim, env).ret == 0
    ensures Holds(InitModule(GlobalInit(maxCpu), lim, env).trace, DeviceHandler)
    ensures !Holds(InitModule(GlobalInit(maxCpu), lim, env).trace, TxThreads)
  {
    var g := GlobalInit(maxCpu);
    assert OptionsValid(g, lim);
    CapturingLoad(g, lim, env);
  }

  /** A load with valid options, no Tx thread and some direction captured
      succeeds when its set-up calls do, and leaves the packet hook
      installed. */
  lemma CapturingLoad(g: GlobalData, lim: Limits, env: LoadEnv)
    requires g.txThreadNr == 0 && CapturesAnything(g) && OptionsValid(g, lim)
    requires CoreSetupOk(env) && (env.useSkbPool ==> env.skbPoolInit >= 0)
    ensures InitModule(g, lim, env).ret == 0
    ensures Holds(InitModule(g, lim, env).trace, DeviceHandler)
    ensures !Holds(InitModule(g, lim, env).trace, TxThreads)
  {
    LoadSuccessTrace(g, lim, env, false);
    QuietSuccessTrace(g, env.useSkbPool);
  }

  /** The success trace of a load without Tx threads that captures some
      direction holds the packet hook and no Tx thread. */
  lemma QuietSuccessTrace(g: GlobalData, useSkbPool: bool)
    requires g.txThreadNr == 0 && CapturesAnything(g)
    ensures Holds(SuccessTrace(g, useSkbPool), DeviceHandler)
    ensures !Holds(SuccessTrace(g, useSkbPool), TxThreads)
  {
    var t := SuccessTrace(g, useSkbPool);
    assert forall st :: st in t ==> st.Setup?;
    assert Setup(DeviceHandler, true) in RegisterDeviceHandler(g);
    assert Setup(TxThreads, true) !in t;
  }
}

=== FILE: pfq_handler.dfy ===
/** The per-packet and per-socket entry points of kernel/pf_q.c: the
    capture decision of `pfq_packet_rcv` and the argument checks of
    `pfq_create`. The kernel calls they make (`skb_share_check`,
    `pfq_receive`, `capable`, `sk_alloc`, `pfq_get_free_id`,
    `pfq_sock_init`) are parameters. */
module PfqHandler {

  import opened Wrappers
  import opened Global
  import opened Pfq
  import opened Errno

  // -----------------------------------------------------------------------
  // Packet handler

  /** Length of an Ethernet header. */
  const ETH_HLEN := 14

  /** The `pkt_type` of a socket buffer. */
  datatype PacketType =
    | Host | Broadcast | Multicast | OtherHost | Outgoing | Loopback | User | Kernel

  /** The fields of a socket buffer the handler reads or writes. */
  datatype Skb = Skb(pktType: PacketType, peeked: bool, macLen: nat)

  /** What becomes of a packet: handed to the PFQ engine, freed by the
      handler (counted as an `os_free`), or lost because it could not be
      unshared (`skb_share_check` frees it itself). */
  datatype Fate = Received | Freed | Unshared

  /** The handler's return value, the packet's fate and final fields, and
      how much the `os_free` counter grows. */
  datatype RcvOutcome = RcvOutcome(ret: int, fate: Fate, skb: Skb, osFree: nat)

  /** The capture switch that applies to a packet of type `t`. */
  predicate CaptureEnabled(g: GlobalData, t: PacketType)
  {
    if t == Outgoing then g.captureOutgoing else g.captureIncoming
  }

  /** `pfq_packet_rcv`. `shareOk` says whether `skb_share_check` returned a
      buffer, and `receiveRet` is what `pfq_receive` returns. */
  function PacketRcv(g: GlobalData, skb: Skb, shareOk: bool, receiveRet: int): (o: RcvOutcome)
    ensures o.fate == Received <==>
              skb.pktType != Loopback && !skb.peeked && shareOk && CaptureEnabled(g, skb.pktType)
    ensures o.fate == Unshared <==> skb.pktType != Loopback && !skb.peeked && !shareOk
    ensures o.ret == (if o.fate == Received then receiveRet else 0)
    ensures o.osFree == (if o.fate == Freed then 1 else 0)
    ensures o.skb.pktType == skb.pktType
    ensures o.skb.peeked == (skb.peeked && skb.pktType == Loopback)
    ensures o.skb.macLen == (if o.fate == Received && skb.pktType == Outgoing then ETH_HLEN else skb.macLen)
  {
    if skb.pktType == Loopback then RcvOutcome(0, Freed, skb, 1)
    else if skb.peeked then RcvOutcome(0, Freed, skb.(peeked := false), 1)
    else if !shareOk then RcvOutcome(0, Unshared, skb, 0)
    else if skb.pktType == Outgoing then
      if !g.captureOutgoing then RcvOutcome(0, Freed, skb, 1)
      else RcvOutcome(receiveRet, Received, skb.(macLen := ETH_HLEN), 0)
    else if !g.captureIncoming then RcvOutcome(0, Freed, skb, 1)
    else RcvOutcome(receiveRet, Received, skb, 0)
  }

  /** A packet reaches the engine only when the handler is registered at
      all: the registration condition covers every capture decision. */
  lemma CaptureNeedsHandler(g: GlobalData, skb: Skb, shareOk: bool, receiveRet: int)
    ensures PacketRcv(g, skb, shareOk, receiveRet).fate == Received ==>
              RegisterDeviceHandler(g) == [Setup(DeviceHandler, true)]
  {
  }

  /** Turning a capture switch on never makes the handler drop a packet it
      would otherwise pass on, and outgoing and incoming switches are
      independent of each other. */
  lemma CaptureMonotonic(g: GlobalData, g': GlobalData, skb: Skb, shareOk: bool, receiveRet: int)
    requires g.captureIncoming ==> g'.captureIncoming
    requires g.captureOutgoing ==> g'.captureOutgoing
    ensures PacketRcv(g, skb, shareOk, receiveRet).fate == Received ==>
              PacketRcv(g', skb, shareOk, receiveRet).fate == Received
    ensures skb.pktType != Outgoing && g.captureIncoming == g'.captureIncoming ==>
              PacketRcv(g, skb, shareOk, receiveRet) == PacketRcv(g', skb, shareOk, receiveRet)
  {
  }

  /** Each packet the handler sees is either received, freed and counted,
      or lost in unsharing: exactly one of the three, and a freed packet is
      never also received. */
  lemma EveryPacketAccounted(g: GlobalData, skb: Skb, shareOk: bool, receiveRet: int)
    ensures var o := PacketRcv(g, skb, shareOk, receiveRet);
            (o.fate == Received) != (o.osFree == 1 || o.fate == Unshared)
  {
  }

  // -----------------------------------------------------------------------
  // Socket creation

  /** What `pfq_create` is asked for and what the kernel calls it makes
      return: `CAP_NET_ADMIN`, the socket type and protocol, whether
      `sk_alloc` succeeds, the id `pfq_get_free_id` returns and what
      `pfq_sock_init` returns. */
  datatype CreateEnv = CreateEnv(
    netAdmin: bool, sockType: int, protocol: int,
    skAlloc: bool, freeId: int, sockInit: int)

  /** The socket options `pfq_sock_opt_init` sets from the module's slot
      sizes. */
  datatype SockOpt = SockOpt(captSlotSize: int, xmitSlotSize: int)

  /** The result of `pfq_create` and its lasting effects: whether the
      socket was marked unconnected and given the PFQ operations, whether
      a `struct sock` stays allocated, how often `sock_lock` was taken and
      released, whether the symbol-table semaphore is held for reading,
      and the options of the new socket. */
  datatype CreateOutcome = CreateOutcome(
    ret: int, unconnected: bool, opsSet: bool, skLive: bool,
    locks: nat, unlocks: nat, symtableRead: bool, opt: Option<SockOpt>)

  /** `__constant_htons(ETH_P_ALL)`. */
  const ProtocolAll := Htons(ETH_P_ALL)

  /** The three sanity checks before any allocation. */
  predicate CreateArgsOk(e: CreateEnv)
  {
    e.netAdmin && e.sockType == SOCK_RAW && e.protocol == ProtocolAll
  }

  /** `pfq_create`. */
  function Create(g: GlobalData, e: CreateEnv): (o: CreateOutcome)
    ensures o.ret == 0 <==> CreateArgsOk(e) && e.skAlloc && e.freeId != -1 && e.sockInit >= 0
    ensures !e.netAdmin ==> o.ret == -EPERM
    ensures e.netAdmin && e.sockType != SOCK_RAW ==> o.ret == -ESOCKTNOSUPPORT
    ensures e.netAdmin && e.sockType == SOCK_RAW && e.protocol != ProtocolAll ==> o.ret == -EPROTONOSUPPORT
    ensures CreateArgsOk(e) && !e.skAlloc ==> o.ret == -ENOMEM
    ensures CreateArgsOk(e) && e.skAlloc && e.freeId == -1 ==> o.ret == -EBUSY
    ensures CreateArgsOk(e) && e.skAlloc && e.freeId != -1 && e.sockInit < 0 ==> o.ret == -EINVAL
    ensures o.unconnected <==> CreateArgsOk(e)
    ensures o.opsSet <==> CreateArgsOk(e) && e.skAlloc
    ensures o.skLive <==> o.ret == 0
    ensures o.symtableRead <==> o.ret == 0
    ensures o.locks == o.unlocks <= 1
    ensures o.locks == 1 <==> CreateArgsOk(e) && e.skAlloc && e.freeId != -1
    ensures o.opt == (if o.ret == 0 then Some(SockOpt(g.captSlotSize, g.xmitSlotSize)) else None)
  {
    var rejected := CreateOutcome(0, false, false, false, 0, 0, false, None);
    if !e.netAdmin then rejected.(ret := -EPERM)
    else if e.sockType != SOCK_RAW then rejected.(ret := -ESOCKTNOSUPPORT)
    else if e.protocol != ProtocolAll then rejected.(ret := -EPROTONOSUPPORT)
    else
      var unconnected := rejected.(unconnected := true);
      if !e.skAlloc then unconnected.(ret := -ENOMEM)
      else
        // sk_alloc succeeded: the operations are installed and `sk` is live
        var withSk := unconnected.(opsSet := true, skLive := true);
        if e.freeId == -1 then withSk.(ret := -EBUSY, skLive := false)
        else
          var locked := withSk.(locks := 1);
          if e.sockInit < 0 then locked.(ret := -EINVAL, skLive := false, unlocks := 1)
          else locked.(unlocks := 1, symtableRead := true,
                       opt := Some(SockOpt(g.captSlotSize, g.xmitSlotSize)))
  }

  /** The protocol a PFQ socket must be opened with is `ETH_P_ALL` in
      network byte order, 0x0300 on a little-endian host. */
  lemma ProtocolAllValue()
    ensures ProtocolAll == 0x0300
    ensures Htons(ProtocolAll) == ETH_P_ALL
  {
  }

  /** Every error path of `pfq_create` leaves no `struct sock` behind, no
      lock held and no socket options, and the error is one of the six the
      function can return. */
  lemma CreateFailureLeavesNothing(g: GlobalData, e: CreateEnv)
    ensures var o := Create(g, e);
            o.ret != 0 ==>
              && o.ret in {-EPERM, -ESOCKTNOSUPPORT, -EPROTONOSUPPORT, -ENOMEM, -EBUSY, -EINVAL}
              && !o.skLive && !o.symtableRead && o.locks == o.unlocks && o.opt.None?
  {
  }

  /** The sanity checks come first: a rejected request returns the same
      error whatever the allocator, the id table and the socket
      initialisation would have done. */
  lemma ChecksPrecedeAllocation(g: GlobalData, e: CreateEnv, e': CreateEnv)
    requires e.netAdmin == e'.netAdmin && e.sockType == e'.sockType && e.protocol == e'.protocol
    requires !CreateArgsOk(e)
    ensures Create(g, e) == Create(g, e')
  {
  }
}

=== FILE: wrappers.dfy ===
/** Option type shared by the modules of this model: a nullable handle or an
    undefined result. */
module Wrappers {

  datatype Option<+T> = None | Some(value: T)
}
